=== FILE: README.md ===
# Repository sync scripts, bulk-rename partitions and distro setup, in Dafny

This project models the decision logic of a set of Python automation
scripts.

- **Sync with the git remote, strict copy.** `GitRepository.update` in
  `terminal/task-automation/git-update.py` handles one repository;
  `GitManager.update_all_repositories` calls it on each repository
  discovery found. `update` checks the path is a repository, then runs fetch,
  the dirty check and the ahead/behind count. It pushes when ahead and pulls
  with `--rebase` when behind. It stops at the first step it judges failed.
  A step counts as failed when `run_git_command` returns a falsy value:
  `None` after a non-zero exit, or the empty string after a silent success.
- **Sync with the git remote, loose copy.** `terminal/task_automation/git_update.py`
  has the same shape, but:
  - it never looks at the fetch result;
  - it reads a blank ahead/behind answer as `(0, 0)`;
  - it pushes and pulls through `GitAutomation`, which reports failures and
    carries on, so a failed push is still followed by a plain `git pull`.
- **Discovery and batch.** Both copies share the discovery code: the
  directories of the base directory that hold a `.git` directory, appended
  to the manager's list. They also share the batch loop. That loop has no
  exception handler, so a malformed rev-list answer raises `ValueError` and
  ends the batch.
- **Bulk rename, file_management.** `terminal/file_management/bulk_rename.py`
  splits indices `0 .. total - 1` into `num_threads` slices of
  `ceil(total / num_threads)` items. Its workers catch their own failures.
- **Bulk rename, system-monitoring.** `terminal/system-monitoring/bulk_rename.py`
  splits into four slices of `count // 4`, the last one also taking the
  remainder. Its workers catch nothing.
- **Distro setup.** `terminal/git-automations/git-automation-setup.py`
  classifies the distribution by substring tests on `/etc/os-release`. It
  then picks the package-manager commands that install git and the GitHub
  CLI.

Every command outcome is an input. The scripts' own code becomes pure
functions from those outcomes to the git command trace and the final
outcome, to per-thread logs of attempts, or to lists of commands. That own
code is:
- the `update` methods;
- the slice arithmetic;
- the workers' loops;
- the distro tests.

Where an outcome comes from outside, it is modelled as follows:
- git's answer is `Proc(exitOk, stdout)`;
- the filesystem's answer to one rename or create is `ok(i)`;
- the content of `/etc/os-release` is an `Option<string>`.

Modules:
- `Wrappers`, `Text`: Python string primitives the code relies on. These are
  `str.strip`, `str.split`, `str.lower`, `in` on strings, `str(int)` and
  `int(str)`.
- `GitCommands`: the git argument vectors, the order the pipeline issues
  them in, and the parsing of `rev-list --left-right --count`.
- `Discovery`, `Batch`: `discover_repositories` and
  `update_all_repositories`.
- `StrictUpdate`, `LooseUpdate`: the two `update` copies.
- `CompareCopies`: where the two copies agree and where they part.
- `Slices`, `Workers`, `ThreadedRename`, `QuarterRename`: the bulk-rename
  scripts.
- `DistroSetup`: `detect_linux_distro` and the two `check_and_install_*`
  functions.

Behaviours of the code worth knowing before reading the model:
- **Failed status command.** In the strict copy a failed status command
  yields `None` and counts as clean (`StrictUpdate.IsDirty`). The loose
  copy never looks at the exit status.
- **How success is judged.** The strict copy judges fetch, push and pull
  by whether they printed anything on stdout, not by their exit status;
  see Findings.
- **One malformed answer ends the batch.** A `ValueError` from rev-list
  parsing is not caught by `update_all_repositories`, so the repositories
  after it get no update (`StrictUpdate.MalformedCountsEndBatch`).
- **Unknown counts.** The loose copy reads a blank rev-list answer as
  (0, 0) and reports the repository up to date
  (`LooseUpdate.BlankCountsReadAsUpToDate`).
- **Failed push.** The loose copy pulls even after a failed push
  (`CompareCopies.LoosePullsAfterFailedPush`).
- **Missing upstream.** Neither copy tells a missing upstream apart: it is
  simply a rev-list that printed nothing.

## Model

| member | source | states |
|---|---|---|
| Text.Strip | terminal/task-automation/git-update.py:28 | `str.strip()` gives the empty string exactly when the text is all whitespace, and otherwise neither end of the result is whitespace |
| Text.StripPadded | terminal/task-automation/git-update.py:28 | stripping whitespace padding around a word with no whitespace at its ends gives back the word |
| Text.Split | terminal/task-automation/git-update.py:51 | `str.split()` yields non-empty words without whitespace, and no words exactly when the text is all whitespace |
| Text.SplitSkipsSpace | terminal/task-automation/git-update.py:51 | leading whitespace produces no word |
| Text.SplitWordThenRest | terminal/task-automation/git-update.py:51 | after leading whitespace, the first maximal run of non-whitespace is the first word and the words of the rest follow; applied word by word this fixes the words of every text and their order |
| Text.SplitTwoWords | terminal/task-automation/git-update.py:51 | two words joined by one whitespace character split back into exactly those two words |
| Text.IntToString | terminal/file_management/bulk_rename.py:41 | `str()` of an int is non-empty and holds neither whitespace nor an underscore; its partner is the round trip below |
| Text.ParseInt | terminal/task-automation/git-update.py:51 | `int()` accepts a token only when it starts with a digit or a sign |
| Text.ParseIntAccepts | terminal/task-automation/git-update.py:51 | the modelled `int()` (ASCII digits after an optional sign; see `Text.ParseInt` under Left out for what Python also accepts) refuses a token with a non-digit after its first character; only a leading minus gives a negative value; digits alone give a natural number |
| Text.Lower | terminal/git-automations/git-automation-setup.py:23 | `str.lower()` maps each character on its own, leaves no upper-case ASCII letter and changes no other character |
| Text.ParseIntRoundTrip | terminal/task-automation/git-update.py:51 | `int(str(n)) == n` for every integer, negative ones included |
| Text.IntToStringInjective | terminal/file_management/bulk_rename.py:41 | distinct integers print as distinct decimal strings |
| Text.DecimalRoundTrip | terminal/task-automation/git-update.py:51 | the decimal digits of a natural number read back as that number |
| Text.ContainsAt | terminal/git-automations/git-automation-setup.py:24 | an occurrence of the needle at any position makes `needle in hay` true |
| Text.ContainsOccurs | terminal/git-automations/git-automation-setup.py:24 | conversely, `needle in hay` is true only where needle occurs at some position of hay |
| Text.ContainsNeedsRoom | terminal/git-automations/git-automation-setup.py:24 | a needle longer than the text never occurs in it |
| GitCommands.Argv | terminal/task-automation/git-update.py:36-63 | every command is a `git` invocation with a subcommand, and only the strict copy's pull carries `--rebase` |
| GitCommands.ArgvInjective | terminal/task_automation/git_update.py:20-43 | distinct commands are distinct argument vectors, so a trace of commands fixes the git invocations issued |
| GitCommands.PipelineOrderIsStrict | terminal/task-automation/git-update.py:65-96 | in a trace in pipeline order no command repeats and each comes after every command of an earlier stage |
| GitCommands.SameTraceByMembership | terminal/task_automation/git_update.py:45-73 | two traces in pipeline order that hold the same commands are equal |
| GitCommands.ParseCounts | terminal/task-automation/git-update.py:51 | `map(int, text.split())` unpacked into two names succeeds exactly when the text is two integer words, giving their values |
| GitCommands.CountsRoundTrip | terminal/task-automation/git-update.py:51 | rev-list's "ahead, whitespace, behind" answer reads back as the same pair of counts |
| Discovery.Discover | terminal/task-automation/git-update.py:106-114 | an entry is kept exactly when it is a directory holding a `.git` directory |
| Discovery.DiscoverKeepsOrder | terminal/task-automation/git-update.py:109-114 | discovery keeps listing order: the repositories of a split listing are those of the first part, then those of the second |
| Discovery.DiscoverRepositories | terminal/task-automation/git-update.py:102-114 | discovery appends to the repositories already held: earlier entries stay first and unchanged, and after them come the repositories of the listing in listing order; the base directory is unchanged |
| Discovery.RediscoveryDuplicates | terminal/task_automation/git_update.py:79-91 | running discovery twice on a fresh manager lists every repository twice |
| Batch.UpdateAll | terminal/task-automation/git-update.py:116-125 | `update` runs once per repository in order; the loop ends right after the first run that raises, and covers every repository when none raises |
| StrictUpdate.RunGitCommand | terminal/task-automation/git-update.py:17-31 | `None` exactly when git exits non-zero; otherwise the stripped stdout, empty exactly when stdout is blank |
| StrictUpdate.IsDirty | terminal/task-automation/git-update.py:38-42 | dirty exactly when status exits with 0 and prints something other than whitespace; a failed status counts as clean |
| StrictUpdate.CheckBranchStatus | terminal/task-automation/git-update.py:44-53 | unknown exactly when rev-list fails or prints only whitespace; counts when the output is two integers; the `ValueError` case otherwise |
| StrictUpdate.BranchStatusReadsRevList | terminal/task-automation/git-update.py:47-52 | the tab-separated, newline-terminated answer of rev-list reads as its two counts |
| StrictUpdate.BranchStatusReadsSpacedPair | terminal/task-automation/git-update.py:47-52 | the answer "a b" reads as `(a, b)` |
| StrictUpdate.PushThenPull | terminal/task-automation/git-update.py:84-96 | push exactly when ahead; pull `--rebase` exactly when behind and any push succeeded; a failed push ends the run without a pull |
| StrictUpdate.AfterCounts | terminal/task-automation/git-update.py:79-96 | with counts known, the trace is fetch, status and rev-list, then the push/pull tail, in pipeline order |
| StrictUpdate.Decide | terminal/task-automation/git-update.py:65-96 | nothing is issued for a non-repository; a failed fetch ends the run after the fetch; status is issued only after a fetch that succeeded; rev-list only when clean; push and pull as the counts and the push's result call for; never a plain pull |
| StrictUpdate.DecideOutcome | terminal/task-automation/git-update.py:65-96 | each final message corresponds exactly to the observations that lead to it |
| StrictUpdate.Pipeline | terminal/task-automation/git-update.py:65-96 | over the scripted command results: the trace is in pipeline order, starts with the fetch in a repository and never holds a plain pull; each step runs exactly when its gate passes; a crash, a failed push and a failed pull each happen exactly when their step ran and failed; "up to date" exactly when both counts are known and neither push nor pull failed |
| StrictUpdate.SilentFetchSkipsRepository | terminal/task-automation/git-update.py:71-73 | a fetch that exits with 0 but prints nothing ends the run as "Fetch failed" |
| StrictUpdate.SilentPushBlocksPull | terminal/task-automation/git-update.py:84-88 | a silent but successful push ends the run as "Push failed", and no pull is issued |
| StrictUpdate.ExitStatusJudgesSteps | terminal/task-automation/git-update.py:17-31 | judged by exit status, a successful fetch always reaches the dirty check, and a successful push is followed by the pull |
| StrictUpdate.JudgesAgreeWhenGitSpeaks | terminal/task-automation/git-update.py:17-31 | when every successful fetch, push and pull prints something, judging by stdout and by exit status give the same run |
| StrictUpdate.UpdateAllRepositories | terminal/task-automation/git-update.py:116-125 | one report per repository in discovery order, each the result of `update`; no report but the last is a crash, and a batch cut short ends on a crashed update, so the loop stops at the first crash |
| StrictUpdate.AllUpdatedWithoutMalformed | terminal/task-automation/git-update.py:47-53 | when no rev-list answer is malformed, every repository is updated |
| StrictUpdate.MalformedCountsEndBatch | terminal/task-automation/git-update.py:121-122 | a malformed rev-list answer in repository k, with none before it, leaves exactly k + 1 reports |
| LooseUpdate.IsDirty | terminal/task_automation/git_update.py:22-31 | dirty exactly when status printed something other than whitespace, whatever its exit status |
| LooseUpdate.CheckBranchStatus | terminal/task_automation/git_update.py:33-43 | a blank answer is `(0, 0)`; any other answer must parse as two integers |
| LooseUpdate.PushThenPull | terminal/task_automation/git_update.py:57-69 | push exactly when ahead, plain pull exactly when behind, in that order, independent of each other |
| LooseUpdate.PushThenPullFollowsTable | terminal/task_automation/git_update.py:57-73 | exactly one of nothing, push, pull, or push then pull, chosen by the signs of the two counts |
| LooseUpdate.AfterCounts | terminal/task_automation/git_update.py:57-73 | once the counts are known, the trace is fetch, status, rev-list, then the push/pull tail; "up to date" exactly when both counts are 0 |
| LooseUpdate.Decide | terminal/task_automation/git_update.py:45-73 | nothing for a non-repository; fetch and status always follow for a repository; rev-list only when clean; push when ahead and plain pull when behind; never `--rebase` |
| LooseUpdate.DecideOutcome | terminal/task_automation/git_update.py:45-73 | each final message corresponds exactly to the observations that lead to it |
| LooseUpdate.Update | terminal/task_automation/git_update.py:45-73 | the run raises exactly when a clean repository's rev-list answer is non-blank and not two integers |
| LooseUpdate.ActionsFollowCounts | terminal/task_automation/git_update.py:57-73 | with counts known, the commands after rev-list are exactly the table's entry for them |
| LooseUpdate.BlankCountsReadAsUpToDate | terminal/task_automation/git_update.py:42 | a rev-list that prints nothing leaves the repository reported up to date with no push or pull |
| LooseUpdate.UpdateAllRepositories | terminal/task_automation/git_update.py:93-102 | one report per repository in discovery order, each the result of `update`; no report but the last is a crash, and a batch cut short ends on a crashed update, so the loop stops at the first crash |
| LooseUpdate.MalformedCountsEndBatch | terminal/task_automation/git_update.py:93-102 | the first crashing update at position k leaves exactly k + 1 reports |
| LooseUpdate.AllUpdatedWhenCountsParse | terminal/task_automation/git_update.py:42 | when every rev-list answer is blank or two integers, every repository is updated |
| CompareCopies.Loosen | terminal/task_automation/git_update.py:22-31 | the loose copy sees the same repository and judges dirtiness from the same status output |
| CompareCopies.SameCountsWhenRevListSucceeds | terminal/task_automation/git_update.py:33-43 | with rev-list exiting 0, both copies read the same counts or raise on the same answer; the strict copy's "unknown" is the loose copy's `(0, 0)` |
| CompareCopies.SameCommandsWhenGitSucceeds | terminal/task_automation/git_update.py:45-73 | when fetch, status, rev-list and push exit with 0, the copies issue the same commands, judged by exit status, apart from the pull mode |
| CompareCopies.SameDecisions | terminal/task_automation/git_update.py:45-73 | the two decision sequences issue the same commands once they observe the same things |
| CompareCopies.SameTraceUpToPullMode | terminal/task_automation/git_update.py:45-73 | two pipeline-ordered traces holding the same commands, `--rebase` aside, are equal once the pull mode is forgotten |
| CompareCopies.LooseIgnoresFailedFetch | terminal/task_automation/git_update.py:51-53 | after a failed fetch the strict copy stops, while the loose copy goes on to the dirty check |
| CompareCopies.LoosePullsAfterFailedPush | terminal/task_automation/git_update.py:58-69 | with both counts positive and a failed push, the strict copy judged by exit status reports the push failure without pulling, while the loose copy pulls |
| CompareCopies.LoosePullsAfterFailedPushAsWritten | terminal/task-automation/git-update.py:71-94 | the same for the strict copy as written, judged by standard output, when the fetch prints something |
| CompareCopies.LooseReportsUnknownAsUpToDate | terminal/task_automation/git_update.py:36-43 | a rev-list that fails silently is "unknown" in the strict copy but "up to date" in the loose copy |
| Slices.OwnerIsUnique | terminal/file_management/bulk_rename.py:13-15 | in a partition of the indices among threads, the thread visiting an index is unique |
| Workers.TargetNameShape | terminal/file_management/bulk_rename.py:41 | every target name `f"{new_name}_{t}_{i}.{extension}"` starts with the base name and an underscore and ends with a dot and the extension |
| Workers.TargetNameInjective | terminal/file_management/bulk_rename.py:41 | for one base name and extension, distinct (thread, index) pairs give distinct file names, even when the base name contains underscores |
| Workers.Files | terminal/file_management/bulk_rename.py:34 | no more names than entries, and none exactly when the listing has no plain file |
| Workers.FilesMembers | terminal/file_management/bulk_rename.py:34 | a name is kept exactly when the listing has a plain file of that name |
| Workers.FilesKeepsOrder | terminal/file_management/bulk_rename.py:34 | the files of a concatenated listing are those of each part in turn, so listing order is kept |
| Workers.FilesOfEntry | terminal/file_management/bulk_rename.py:34 | one entry gives its name exactly when it is a plain file; with FilesKeepsOrder, one name per plain file |
| Workers.CaughtWorker | terminal/file_management/bulk_rename.py:38-47 | every index of the slice is attempted, in order, whether or not earlier attempts failed |
| Workers.UncaughtWorker | terminal/system-monitoring/bulk_rename.py:10-16 | the attempts are a prefix of the slice; all succeed except possibly the last; the thread stops early only after a failure |
| Workers.UncaughtMatchesCaughtWithoutFailures | terminal/system-monitoring/bulk_rename.py:10-16 | with no failure in the slice, the worker attempts every index like the catching worker does |
| Workers.CaughtLogsCover | terminal/file_management/bulk_rename.py:13-21 | over slices partitioning `0 .. total - 1`, every index below total is attempted |
| Workers.CaughtLogsInRange | terminal/file_management/bulk_rename.py:38-41 | no attempt is made at an index outside `0 .. total - 1`, so `files[i]` is always in range |
| Workers.CaughtLogsIndicesOnce | terminal/file_management/bulk_rename.py:13-21 | over slices partitioning `0 .. total - 1`, each index is attempted by one thread, once |
| Workers.CaughtLogsTargetsDistinct | terminal/file_management/bulk_rename.py:41 | no two attempts of a run share a target name |
| ThreadedRename.CeilDiv | terminal/file_management/bulk_rename.py:11 | the result is the least integer at least `a / n` |
| ThreadedRename.ItemsPerThread | terminal/file_management/bulk_rename.py:11 | `ceil(total / num_threads)` for either sign of the thread count |
| ThreadedRename.ThreadSlice | terminal/file_management/bulk_rename.py:14-15 | a slice never holds more than the per-thread size |
| ThreadedRename.ExecuteInThreads | terminal/file_management/bulk_rename.py:6-24 | a zero thread count raises `ZeroDivisionError`; otherwise there is one numbered slice per thread in `range(num_threads)`, each at most the per-thread size |
| ThreadedRename.CeilSlicesPartition | terminal/file_management/bulk_rename.py:13-15 | for a positive thread count and any total, the slices cover `0 .. total - 1` exactly once and nothing else |
| ThreadedRename.SliceInRange | terminal/file_management/bulk_rename.py:14-15 | an index of a thread's slice lies in `0 .. total - 1` |
| ThreadedRename.OwnerOf | terminal/file_management/bulk_rename.py:13-15 | index i lies in the slice of thread `i // size`, which is a started thread |
| ThreadedRename.SlicesDisjoint | terminal/file_management/bulk_rename.py:14-15 | the slices of two threads share no index |
| ThreadedRename.RenameFilesInFolder | terminal/file_management/bulk_rename.py:27-50 | the errors are checked in order: not a directory, then no files, then zero threads; on success there is one log per started thread |
| ThreadedRename.EveryFileRenamedOnce | terminal/file_management/bulk_rename.py:38-49 | with a positive thread count every file is attempted exactly once, by one thread, each under its own target name, and no index outside the file list is touched |
| ThreadedRename.CreateFilesInFolder | terminal/file_management/bulk_rename.py:53-73 | a zero thread count raises before any file is created; otherwise there is one log per started thread |
| ThreadedRename.EveryFileCreatedOnce | terminal/file_management/bulk_rename.py:61-72 | with a positive thread count each index below count is attempted exactly once, by one thread, under its own name, and nothing is attempted for a count of zero or less |
| QuarterRename.QuarterSlice | terminal/system-monitoring/bulk_rename.py:23-27 | thread t's slice starts at `t * (count // 4)` |
| QuarterRename.QuarterSlices | terminal/system-monitoring/bulk_rename.py:19-27 | exactly four numbered slices |
| QuarterRename.QuarterSlicesPartition | terminal/system-monitoring/bulk_rename.py:23-27 | for any count of zero or more, the four slices cover `0 .. count - 1` exactly once and nothing else |
| QuarterRename.QuarterSizes | terminal/system-monitoring/bulk_rename.py:20-27 | the first three threads get `count // 4` items each, the last `count // 4 + count % 4` |
| QuarterRename.SmallCountGoesToLastThread | terminal/system-monitoring/bulk_rename.py:20-27 | with fewer than four items, every item goes to thread 3 |
| QuarterRename.NegativeCountCreatesFiles | terminal/system-monitoring/bulk_rename.py:50-57 | a count of -1 is not refused: thread 3 gets the slice `[-3, -1)` of two indices |
| QuarterRename.RenameFiles | terminal/system-monitoring/bulk_rename.py:4-34 | four logs, each the catching worker's log over that thread's quarter, cut right after its first failed rename: every attempt but the last succeeded, and a log shorter than its slice ends on a failure |
| QuarterRename.CreateFiles | terminal/system-monitoring/bulk_rename.py:36-64 | four logs over the same quarters of `0 .. count - 1`, each cut right after its thread's first failed create in the same sense |
| QuarterRename.RenameFilesWithoutFailures | terminal/system-monitoring/bulk_rename.py:4-34 | when no rename fails, every listed file is attempted, and the logs are those of the catching workers |
| DistroSetup.DetectLinuxDistro | terminal/git-automations/git-automation-setup.py:19-31 | a missing os-release file gives None; each answer names a family whose name occurs in the lower-cased file |
| DistroSetup.DetectionIgnoresCase | terminal/git-automations/git-automation-setup.py:23 | the classification of a text and of its lower-cased form agree |
| DistroSetup.MentionIsFound | terminal/git-automations/git-automation-setup.py:23-24 | a word whose lower-cased form is the needle makes the needle occur in the lower-cased text |
| DistroSetup.DebianFamilyComesFirst | terminal/git-automations/git-automation-setup.py:24-25 | a mention of debian or ubuntu, in any case, gives debian, whatever else the file says |
| DistroSetup.ArchMentionRulesOutFedora | terminal/git-automations/git-automation-setup.py:26-29 | "arch" anywhere, even inside another word, gives debian or arch, never fedora or None |
| DistroSetup.ArchWhenNothingEarlier | terminal/git-automations/git-automation-setup.py:24-27 | an "arch" mention in any case, even inside another word, gives arch when neither debian nor ubuntu occurs |
| DistroSetup.FedoraFamilyWhenNothingEarlier | terminal/git-automations/git-automation-setup.py:28-29 | fedora or rhel gives fedora when neither earlier test matched |
| DistroSetup.AbsentCharacter | terminal/git-automations/git-automation-setup.py:24-29 | a needle holding a character the text lacks does not occur in it |
| DistroSetup.NoMentionGivesNone | terminal/git-automations/git-automation-setup.py:23-31 | an existing file gives None exactly when none of debian, ubuntu, arch, fedora, rhel occurs in its lower-cased text |
| DistroSetup.UnknownDistribution | terminal/git-automations/git-automation-setup.py:21-31 | the concrete file "ID=void" and a missing file both give None |
| DistroSetup.InstallPrefix | terminal/git-automations/git-automation-setup.py:44-58 | every install command runs through sudo and names the package manager and its flags in four words |
| DistroSetup.GitInstallCommands | terminal/git-automations/git-automation-setup.py:44-60 | debian gets `apt-get update` and then the install; arch and fedora get one install command; no distro gets no command; the last command installs git |
| DistroSetup.GhInstallCommands | terminal/git-automations/git-automation-setup.py:73-89 | one command per known distro, installing github-cli on arch and gh elsewhere; no distro gets no command |
| DistroSetup.CheckAndInstallGit | terminal/git-automations/git-automation-setup.py:34-60 | nothing is done when git is found; the probe's error escapes when git exits non-zero; installing happens only when git is missing and ends with installing git |
| DistroSetup.CheckAndInstallGhCli | terminal/git-automations/git-automation-setup.py:63-89 | the same shape for gh, with at most one install command |
| DistroSetup.GhUsesGitsPackageManager | terminal/git-automations/git-automation-setup.py:73-89 | gh is installed with the same package-manager invocation as git's final command |

## Left out

- Process execution, the filesystem, printing and the thread objects. Each command's result is an input. Thread interleaving is not modelled: each thread's log is kept apart, and the threads share no state the scripts read.
- `shell=True` with an argument list in the strict copy's `run_git_command`. On a POSIX shell this runs only the first word, so git would get no arguments there. The model takes each command's result as given, whatever the platform.
- The loose copy's fetch, push and pull all go through `GitAutomation.run_command` (terminal/task_automation/git_update.py:20, terminal/git_automations/git_repo_automation.py:11), which passes no `cwd`. They run in the process's working directory, not in the repository being updated. They are modelled as abstract fetch, push and pull events of the repository being updated. Their failures are swallowed, so they carry no result.
- The loose copy's `from .terminal.git_automations.git_repo_automation import GitAutomation` (terminal/task_automation/git_update.py:2) is a relative import that cannot resolve from where the file sits, so the script as written stops at import time. The model describes `update` as if `GitAutomation` were importable.
- ThreadedRename.ItemsPerThread: Python computes `ceil(total / num_threads)` with floating-point division. The model uses the exact integer ceiling, which differs only beyond 2^53.
- Text.ParseInt: `int()` also accepts underscores between digits, surrounding whitespace and non-ASCII digits. These are not modelled; only an optional sign followed by ASCII digits is.
- Text.Lower: only ASCII letters are lower-cased, not the full Unicode case mapping of `str.lower()`.
- `check_and_install_requests` and `authenticate_gh_cli`. They depend on the Python import system and on the text `gh auth status` prints, and they hold no decision over the distro.
- Whether a rename overwrites an existing file of the target name. That depends on the operating system's `os.rename`, so each attempt's success is an input.
- The interactive `__main__` blocks and the Windows/home base-directory selection.

## Findings

| source | as written | input that shows it | evidently intended | confidence | as-written member | corrected member |
|---|---|---|---|---|---|---|
| terminal/task-automation/git-update.py:71-73 | a step succeeds when `run_git_command` returns a truthy value, that is, a non-empty stripped stdout | a `git fetch` that exits with status 0 and prints nothing on stdout, the usual case since git reports fetch progress on stderr: the repository is skipped as "Fetch failed"; likewise a silent successful `git push` (line 86) ends the run as "Push failed" before the pull | success judged by git's exit status, which `run_git_command` already turns into `None` | not executed | StrictUpdate.SilentFetchSkipsRepository | StrictUpdate.ExitStatusJudgesSteps |

=== FILE: batch.dfy ===
/** GitManager.update_all_repositories: update() on each repository held, in
    order. Neither copy catches exceptions around update(), so one that escapes
    (a malformed rev-list answer) ends the loop. */
module Batch {
  import opened Discovery

  /** What one update() call did in the named repository. */
  datatype Report<R> = Report(name: string, result: R)

  /** Runs `update` on the script observed in each repository, in order, and
      stops right after the first result for which `raises` holds. */
  function UpdateAll<S, R>(repos: seq<Entry>, scripts: seq<S>, update: S -> R, raises: R -> bool): (reports: seq<Report<R>>)
    requires |scripts| == |repos|
    ensures |reports| <= |repos|
    ensures forall k :: 0 <= k < |reports| ==> reports[k] == Report(repos[k].name, update(scripts[k]))
    ensures forall k :: 0 <= k < |reports| - 1 ==> !raises(reports[k].result)
    ensures |reports| < |repos| ==> |reports| > 0 && raises(reports[|reports| - 1].result)
    ensures (forall k :: 0 <= k < |repos| ==> !raises(update(scripts[k]))) ==> |reports| == |repos|
    decreases |repos|
  {
    if repos == [] then []
    else
      var first := Report(repos[0].name, update(scripts[0]));
      if raises(first.result) then [first]
      else [first] + UpdateAll(repos[1..], scripts[1..], update, raises)
  }
}

=== FILE: compare_copies.dfy ===
/** The two copies of update() run against the same repository. The strict
    copy sees each git command's exit status and standard output; the loose
    copy sees only the standard output of status and rev-list. */
module CompareCopies {
  import opened Wrappers
  import opened Text
  import opened GitCommands
  import StrictUpdate
  import LooseUpdate

  /** The part of a repository's answers the loose copy looks at. */
  function Loosen(s: StrictUpdate.Script): (l: LooseUpdate.Script)
    ensures l.isRepo == s.isRepo
    ensures LooseUpdate.IsDirty(l.statusOut) <==> !AllSpace(s.status.stdout)
  {
    LooseUpdate.Script(s.isRepo, s.status.stdout, s.revList.stdout)
  }

  /** When fetch, status, rev-list and push all exit with status 0, the
      copies issue the same commands, judged by exit status, apart from the
      strict copy pulling with --rebase. */
  lemma {:induction false} SameCommandsWhenGitSucceeds(s: StrictUpdate.Script)
    requires s.fetch.exitOk && s.status.exitOk && s.revList.exitOk && s.push.exitOk
    ensures ForgetPullMode(StrictUpdate.Pipeline(StrictUpdate.ByExitStatus, s).trace)
            == LooseUpdate.Update(Loosen(s)).trace
  {
    var o := StrictUpdate.Observe(StrictUpdate.ByExitStatus, s);
    var l := Loosen(s);
    SameCountsWhenRevListSucceeds(s);
    SameDecisions(o, LooseUpdate.IsDirty(l.statusOut), LooseUpdate.CheckBranchStatus(l.revListOut));
  }

  /** The decisions of the two copies agree once they have observed the same
      things, a failed rev-list having been read as (0, 0) by the loose copy. */
  lemma SameDecisions(o: StrictUpdate.Observed, dirty: bool, counts: Option<(int, int)>)
    requires o.fetched && o.pushed && o.dirty == dirty
    requires o.counts.Counts? ==> counts == Some((o.counts.ahead, o.counts.behind))
    requires o.counts.Malformed? <==> counts.None?
    requires o.counts.Unknown? ==> counts == Some((0, 0))
    ensures ForgetPullMode(StrictUpdate.Decide(o).trace) == LooseUpdate.Decide(o.isRepo, dirty, counts).trace
  {
    SameInspection(o, dirty, counts);
    SamePushAndPull(o, dirty, counts);
    SameTraceUpToPullMode(StrictUpdate.Decide(o).trace, LooseUpdate.Decide(o.isRepo, dirty, counts).trace);
  }

  /** Two traces in pipeline order that hold the same commands, a pull with
      --rebase in the first standing for a plain pull in the second, are
      equal once the pull mode is forgotten. */
  lemma SameTraceUpToPullMode(strict: seq<Command>, loose: seq<Command>)
    requires InPipelineOrder(strict) && InPipelineOrder(loose)
    requires Fetch in strict <==> Fetch in loose
    requires Status in strict <==> Status in loose
    requires RevList in strict <==> RevList in loose
    requires Push in strict <==> Push in loose
    requires Pull(true) in strict <==> Pull(false) in loose
    requires Pull(false) !in strict && Pull(true) !in loose
    ensures ForgetPullMode(strict) == loose
  {
    SameMembers(strict, loose);
    SameTraceByMembership(ForgetPullMode(strict), loose);
  }

  /** Traces holding the same commands, a pull with --rebase in one standing
      for a plain pull in the other, hold the same commands once the pull
      mode is forgotten. */
  lemma SameMembers(strict: seq<Command>, loose: seq<Command>)
    requires Fetch in strict <==> Fetch in loose
    requires Status in strict <==> Status in loose
    requires RevList in strict <==> RevList in loose
    requires Push in strict <==> Push in loose
    requires Pull(true) in strict <==> Pull(false) in loose
    requires Pull(false) !in strict && Pull(true) !in loose
    ensures forall c: Command :: c in ForgetPullMode(strict) <==> c in loose
  {
    var forgot := ForgetPullMode(strict);
    forall c: Command ensures c in forgot <==> c in loose {
      match c
      case Fetch =>
      case Status =>
      case RevList =>
      case Push =>
      case Pull(rebase) =>
    }
  }

  lemma SameInspection(o: StrictUpdate.Observed, dirty: bool, counts: Option<(int, int)>)
    requires o.fetched && o.dirty == dirty
    ensures Fetch in StrictUpdate.Decide(o).trace <==> Fetch in LooseUpdate.Decide(o.isRepo, dirty, counts).trace
    ensures Status in StrictUpdate.Decide(o).trace <==> Status in LooseUpdate.Decide(o.isRepo, dirty, counts).trace
    ensures RevList in StrictUpdate.Decide(o).trace <==> RevList in LooseUpdate.Decide(o.isRepo, dirty, counts).trace
  {
    var strict := StrictUpdate.Decide(o).trace;
    var loose := LooseUpdate.Decide(o.isRepo, dirty, counts).trace;
    if o.isRepo {
      assert strict[0] == Fetch && loose[0] == Fetch && loose[1] == Status;
    }
  }

  lemma SamePushAndPull(o: StrictUpdate.Observed, dirty: bool, counts: Option<(int, int)>)
    requires o.fetched && o.pushed && o.dirty == dirty
    requires o.counts.Counts? ==> counts == Some((o.counts.ahead, o.counts.behind))
    requires o.counts.Malformed? <==> counts.None?
    requires o.counts.Unknown? ==> counts == Some((0, 0))
    ensures Push in StrictUpdate.Decide(o).trace <==> Push in LooseUpdate.Decide(o.isRepo, dirty, counts).trace
    ensures Pull(true) in StrictUpdate.Decide(o).trace <==> Pull(false) in LooseUpdate.Decide(o.isRepo, dirty, counts).trace
    ensures Pull(false) !in StrictUpdate.Decide(o).trace
    ensures Pull(true) !in LooseUpdate.Decide(o.isRepo, dirty, counts).trace
  {
  }

  /** With rev-list exiting with status 0, both copies read the same counts,
      or both raise on the same malformed answer. */
  lemma SameCountsWhenRevListSucceeds(s: StrictUpdate.Script)
    requires s.revList.exitOk
    ensures StrictUpdate.CheckBranchStatus(s.revList).Counts? ==>
              LooseUpdate.CheckBranchStatus(s.revList.stdout)
              == Some((StrictUpdate.CheckBranchStatus(s.revList).ahead, StrictUpdate.CheckBranchStatus(s.revList).behind))
    ensures StrictUpdate.CheckBranchStatus(s.revList).Malformed? <==> LooseUpdate.CheckBranchStatus(s.revList.stdout).None?
    ensures StrictUpdate.CheckBranchStatus(s.revList).Unknown? ==> LooseUpdate.CheckBranchStatus(s.revList.stdout) == Some((0, 0))
  {
  }

  /** A fetch that fails ends the strict copy's run; the loose copy goes on
      to the dirty check. */
  lemma LooseIgnoresFailedFetch(judge: StrictUpdate.Judge, s: StrictUpdate.Script)
    requires s.isRepo && !s.fetch.exitOk
    ensures StrictUpdate.Pipeline(judge, s) == StrictUpdate.Run([Fetch], StrictUpdate.FetchFailed)
    ensures Status in LooseUpdate.Update(Loosen(s)).trace
  {
  }

  /** A branch ahead and behind whose push fails: the strict copy stops
      without pulling, the loose copy pulls anyway. */
  lemma LoosePullsAfterFailedPush(s: StrictUpdate.Script, ahead: int, behind: int)
    requires s.isRepo && s.fetch.exitOk && s.status.exitOk && AllSpace(s.status.stdout)
    requires StrictUpdate.CheckBranchStatus(s.revList) == StrictUpdate.Counts(ahead, behind)
    requires ahead > 0 && behind > 0 && !s.push.exitOk
    ensures StrictUpdate.Pipeline(StrictUpdate.ByExitStatus, s).outcome == StrictUpdate.PushFailed
    ensures Pull(true) !in StrictUpdate.Pipeline(StrictUpdate.ByExitStatus, s).trace
    ensures Push in LooseUpdate.Update(Loosen(s)).trace && Pull(false) in LooseUpdate.Update(Loosen(s)).trace
  {
    SameCountsWhenRevListSucceeds(s);
  }

  /** The same branch with the code as written: when the fetch prints
      something, the strict copy still stops on the failed push without
      pulling. */
  lemma LoosePullsAfterFailedPushAsWritten(s: StrictUpdate.Script, ahead: int, behind: int)
    requires s.isRepo && s.fetch.exitOk && !AllSpace(s.fetch.stdout) && s.status.exitOk && AllSpace(s.status.stdout)
    requires StrictUpdate.CheckBranchStatus(s.revList) == StrictUpdate.Counts(ahead, behind)
    requires ahead > 0 && behind > 0 && !s.push.exitOk
    ensures StrictUpdate.Pipeline(StrictUpdate.ByStdout, s).outcome == StrictUpdate.PushFailed
    ensures Pull(true) !in StrictUpdate.Pipeline(StrictUpdate.ByStdout, s).trace
    ensures Push in LooseUpdate.Update(Loosen(s)).trace && Pull(false) in LooseUpdate.Update(Loosen(s)).trace
  {
    LoosePullsAfterFailedPush(s, ahead, behind);
  }

  /** A rev-list that fails without output, as on a branch with no upstream:
      the strict copy reports the branch status unknown, the loose copy
      reports the repository up to date. */
  lemma LooseReportsUnknownAsUpToDate(judge: StrictUpdate.Judge, s: StrictUpdate.Script)
    requires s.isRepo && StrictUpdate.Succeeded(judge, s.fetch) && s.status.exitOk && AllSpace(s.status.stdout)
    requires !s.revList.exitOk && AllSpace(s.revList.stdout)
    ensures StrictUpdate.Pipeline(judge, s) == StrictUpdate.Run([Fetch, Status, RevList], StrictUpdate.UnknownBranchStatus)
    ensures LooseUpdate.Update(Loosen(s)) == LooseUpdate.Run([Fetch, Status, RevList], LooseUpdate.UpToDate)
  {
    LooseUpdate.BlankCountsReadAsUpToDate(Loosen(s));
  }
}

=== FILE: discovery.dfy ===
/** GitManager.discover_repositories: which entries of the base directory are
    taken as repositories. Both update scripts carry the same code. */
module Discovery {

  /** One name os.listdir(base_dir) returned, with what os.path.isdir says of
      it and of its ".git" child. */
  datatype Entry = Entry(name: string, isDir: bool, hasGitDir: bool)

  /** A directory that holds a ".git" directory. */
  predicate IsRepository(e: Entry) {
    e.isDir && e.hasGitDir
  }

  /** The entries of one listing that are repositories, in listing order. */
  function Discover(listing: seq<Entry>): (repos: seq<Entry>)
    ensures forall e :: e in repos <==> e in listing && IsRepository(e)
    ensures |repos| <= |listing|
  {
    if listing == [] then []
    else (if IsRepository(listing[0]) then [listing[0]] else []) + Discover(listing[1..])
  }

  /** Discovery keeps listing order: the repositories of a listing split in
      two are those of the first part followed by those of the second. */
  lemma {:induction false} DiscoverKeepsOrder(first: seq<Entry>, second: seq<Entry>)
    ensures Discover(first + second) == Discover(first) + Discover(second)
  {
    if first == [] {
      assert first + second == second;
    } else {
      assert (first + second)[1..] == first[1..] + second;
      DiscoverKeepsOrder(first[1..], second);
    }
  }

  /** The manager: its base directory and the repositories found so far. */
  datatype Manager = Manager(baseDir: string, repositories: seq<Entry>)

  /** discover_repositories appends what it finds to the repositories already
      held; it does not clear the list first. */
  function DiscoverRepositories(m: Manager, listing: seq<Entry>): (m': Manager)
    ensures m'.baseDir == m.baseDir
    ensures |m'.repositories| == |m.repositories| + |Discover(listing)|
    ensures m'.repositories[..|m.repositories|] == m.repositories
    ensures m'.repositories[|m.repositories|..] == Discover(listing)
    ensures forall e :: e in m'.repositories <==> e in m.repositories || (e in listing && IsRepository(e))
  {
    var found := Discover(listing);
    assert (m.repositories + found)[..|m.repositories|] == m.repositories;
    assert (m.repositories + found)[|m.repositories|..] == found;
    m.(repositories := m.repositories + found)
  }

  /** Running discovery twice over the same listing lists every repository
      twice, so a batch run afterwards updates each of them twice. */
  lemma RediscoveryDuplicates(baseDir: string, listing: seq<Entry>)
    ensures DiscoverRepositories(DiscoverRepositories(Manager(baseDir, []), listing), listing).repositories
            == Discover(listing) + Discover(listing)
  {
    assert [] + Discover(listing) == Discover(listing);
  }
}

=== FILE: distro_setup.dfy ===
/** GitSetupAutomation in terminal/git-automations/git-automation-setup.py:
    classify the Linux distribution from /etc/os-release and pick the
    package-manager commands that install git and the GitHub CLI. */
module DistroSetup {
  import opened Wrappers
  import opened Text

  /** The three answers detect_linux_distro can give besides None. */
  datatype Distro = Debian | Arch | Fedora

  /** detect_linux_distro: osRelease is the content of /etc/os-release, None
      when the file does not exist. The tests run on the lower-cased text in
      order: debian or ubuntu, then arch, then fedora or rhel. */
  function DetectLinuxDistro(osRelease: Option<string>): (d: Option<Distro>)
    ensures osRelease.None? ==> d.None?
    ensures d == Some(Debian) ==>
              Contains(Lower(osRelease.value), "debian") || Contains(Lower(osRelease.value), "ubuntu")
    ensures d == Some(Arch) ==> Contains(Lower(osRelease.value), "arch")
    ensures d == Some(Fedora) ==>
              Contains(Lower(osRelease.value), "fedora") || Contains(Lower(osRelease.value), "rhel")
  {
    if osRelease.None? then None
    else
      var info := Lower(osRelease.value);
      if Contains(info, "debian") || Contains(info, "ubuntu") then Some(Debian)
      else if Contains(info, "arch") then Some(Arch)
      else if Contains(info, "fedora") || Contains(info, "rhel") then Some(Fedora)
      else None
  }

  /** Lower-casing the text first changes nothing: the classification ignores
      case. */
  lemma DetectionIgnoresCase(text: string)
    ensures DetectLinuxDistro(Some(Lower(text))) == DetectLinuxDistro(Some(text))
  {
    assert Lower(Lower(text)) == Lower(text);
  }

  /** A word that lower-cases to `word` inside text makes `word` occur in
      the lower-cased text. */
  lemma MentionIsFound(before: string, w: string, after: string, word: string)
    requires Lower(w) == word
    ensures Contains(Lower(before + w + after), word)
  {
    var info := Lower(before + w + after);
    assert info[|before|..|before| + |w|] == Lower(w);
    ContainsAt(info, word, |before|);
  }

  /** Any mention of Debian or Ubuntu, in any case, classifies the system as
      debian, whatever else the file says. */
  lemma DebianFamilyComesFirst(before: string, w: string, after: string)
    requires Lower(w) == "debian" || Lower(w) == "ubuntu"
    ensures DetectLinuxDistro(Some(before + w + after)) == Some(Debian)
  {
    MentionIsFound(before, w, after, Lower(w));
  }

  /** "arch" anywhere, even inside another word such as "search", rules out
      fedora and None: the test is on substrings, not on the ID field. */
  lemma ArchMentionRulesOutFedora(before: string, w: string, after: string)
    requires Lower(w) == "arch"
    ensures DetectLinuxDistro(Some(before + w + after)) in {Some(Debian), Some(Arch)}
  {
    MentionIsFound(before, w, after, "arch");
  }

  /** An "arch" mention, in any case and even inside another word, gives
      arch when neither debian nor ubuntu occurs in the file. */
  lemma ArchWhenNothingEarlier(before: string, w: string, after: string)
    requires Lower(w) == "arch"
    requires var info := Lower(before + w + after);
             !Contains(info, "debian") && !Contains(info, "ubuntu")
    ensures DetectLinuxDistro(Some(before + w + after)) == Some(Arch)
  {
    MentionIsFound(before, w, after, "arch");
  }

  /** An existing file gives None exactly when none of the five family
      names occurs in its lower-cased text. */
  lemma NoMentionGivesNone(text: string)
    ensures DetectLinuxDistro(Some(text)) == None <==>
              var info := Lower(text);
              && !Contains(info, "debian") && !Contains(info, "ubuntu")
              && !Contains(info, "arch")
              && !Contains(info, "fedora") && !Contains(info, "rhel")
  {
  }

  /** A Fedora or RHEL mention counts only when nothing earlier matched. */
  lemma FedoraFamilyWhenNothingEarlier(before: string, w: string, after: string)
    requires Lower(w) == "fedora" || Lower(w) == "rhel"
    requires var info := Lower(before + w + after);
             !Contains(info, "debian") && !Contains(info, "ubuntu") && !Contains(info, "arch")
    ensures DetectLinuxDistro(Some(before + w + after)) == Some(Fedora)
  {
    MentionIsFound(before, w, after, Lower(w));
  }

  /** A needle holding a character the text lacks does not occur in it. */
  lemma {:induction false} AbsentCharacter(hay: string, needle: string, c: char)
    requires c in needle && c !in hay
    ensures !Contains(hay, needle)
    decreases |hay|
  {
    if hay != [] {
      AbsentCharacter(hay[1..], needle, c);
    }
  }

  /** An os-release naming none of the families, such as "ID=void", gives
      None, as does a missing file. */
  lemma UnknownDistribution()
    ensures DetectLinuxDistro(Some("ID=void")) == None
    ensures DetectLinuxDistro(None) == None
  {
    var info := Lower("ID=void");
    assert 'b' !in info && 'a' !in info && 'f' !in info && 'h' !in info by {
      forall i | 0 <= i < |info| ensures info[i] in "id=void" {
        assert info[i] == LowerChar("ID=void"[i]);
      }
    }
    AbsentCharacter(info, "debian", 'b');
    AbsentCharacter(info, "ubuntu", 'b');
    AbsentCharacter(info, "arch", 'a');
    AbsentCharacter(info, "fedora", 'f');
    AbsentCharacter(info, "rhel", 'h');
  }

  /** The `--version` probe: it exits with status 0, the program is missing
      (FileNotFoundError), or it exits otherwise, raising a
      CalledProcessError that the `except FileNotFoundError` clause does not
      catch. */
  datatype Probe = Found | Missing | ExitedNonZero

  /** What check_and_install_git / check_and_install_gh_cli end with: nothing
      to do, the install commands run through run_command (which reports
      and swallows their failures), or the probe's exception escaping. */
  datatype Install = AlreadyInstalled | Installing(commands: seq<seq<string>>) | ProbeRaised

  /** The package manager invocation, without the package, each distro uses. */
  function InstallPrefix(d: Distro): (argv: seq<string>)
    ensures |argv| == 4 && argv[0] == "sudo"
  {
    match d
    case Debian => ["sudo", "apt-get", "install", "-y"]
    case Arch => ["sudo", "pacman", "-Sy", "--noconfirm"]
    case Fedora => ["sudo", "dnf", "install", "-y"]
  }

  /** The commands that install git: on debian the package list is updated
      first. */
  function GitInstallCommands(d: Option<Distro>): (commands: seq<seq<string>>)
    ensures d.None? <==> commands == []
    ensures d == Some(Debian) ==> |commands| == 2 && commands[0] == ["sudo", "apt-get", "update"]
    ensures d.Some? && d != Some(Debian) ==> |commands| == 1
    ensures d.Some? ==> var last := commands[|commands| - 1]; |last| == 5 && last[..4] == InstallPrefix(d.value) && last[4] == "git"
  {
    match d
    case None => []
    case Some(Debian) => [["sudo", "apt-get", "update"], ["sudo", "apt-get", "install", "-y", "git"]]
    case Some(Arch) => [["sudo", "pacman", "-Sy", "--noconfirm", "git"]]
    case Some(Fedora) => [["sudo", "dnf", "install", "-y", "git"]]
  }

  /** The GitHub CLI's package name: github-cli in the Arch repositories, gh
      elsewhere. */
  function GhPackage(d: Distro): string {
    if d == Arch then "github-cli" else "gh"
  }

  /** The commands that install the GitHub CLI: a single install command, with
      no package-list update even on debian. */
  function GhInstallCommands(d: Option<Distro>): (commands: seq<seq<string>>)
    ensures d.None? <==> commands == []
    ensures d.Some? ==> |commands| == 1 && |commands[0]| == 5
    ensures d.Some? ==> commands[0][..4] == InstallPrefix(d.value) && commands[0][4] == GhPackage(d.value)
  {
    match d
    case None => []
    case Some(Debian) => [["sudo", "apt-get", "install", "-y", "gh"]]
    case Some(Arch) => [["sudo", "pacman", "-Sy", "--noconfirm", "github-cli"]]
    case Some(Fedora) => [["sudo", "dnf", "install", "-y", "gh"]]
  }

  /** check_and_install_git: distro detection and installation happen only
      when the probe finds no git program. */
  function CheckAndInstallGit(probe: Probe, osRelease: Option<string>): (r: Install)
    ensures r == AlreadyInstalled <==> probe == Found
    ensures r == ProbeRaised <==> probe == ExitedNonZero
    ensures r.Installing? <==> probe == Missing
    ensures r.Installing? ==> (r.commands == [] <==> DetectLinuxDistro(osRelease).None?)
    ensures r.Installing? && r.commands != [] ==> var last := r.commands[|r.commands| - 1]; |last| == 5 && last[4] == "git"
  {
    match probe
    case Found => AlreadyInstalled
    case ExitedNonZero => ProbeRaised
    case Missing => Installing(GitInstallCommands(DetectLinuxDistro(osRelease)))
  }

  /** check_and_install_gh_cli: the same shape with the gh probe and package. */
  function CheckAndInstallGhCli(probe: Probe, osRelease: Option<string>): (r: Install)
    ensures r == AlreadyInstalled <==> probe == Found
    ensures r == ProbeRaised <==> probe == ExitedNonZero
    ensures r.Installing? <==> probe == Missing
    ensures r.Installing? ==> |r.commands| <= 1 && (r.commands == [] <==> DetectLinuxDistro(osRelease).None?)
  {
    match probe
    case Found => AlreadyInstalled
    case ExitedNonZero => ProbeRaised
    case Missing => Installing(GhInstallCommands(DetectLinuxDistro(osRelease)))
  }

  /** On every distro the GitHub CLI is installed with the same package
      manager invocation as git's final command, only the package differs. */
  lemma GhUsesGitsPackageManager(probe: Probe, osRelease: Option<string>)
    requires probe == Missing && DetectLinuxDistro(osRelease).Some?
    ensures var git := CheckAndInstallGit(probe, osRelease).commands;
            var gh := CheckAndInstallGhCli(probe, osRelease).commands;
            |gh| == 1 && gh[0][..4] == git[|git| - 1][..4]
  {
  }
}

=== FILE: git_commands.dfy ===
/** The git invocations both update scripts issue, the order they are issued
    in, and how the answer of `git rev-list --left-right --count HEAD...@{u}`
    is read. */
module GitCommands {
  import opened Wrappers
  import opened Text

  /** One git invocation in a repository. `Pull(true)` is `git pull --rebase`,
      `Pull(false)` is a plain `git pull`. */
  datatype Command = Fetch | Status | RevList | Push | Pull(rebase: bool)

  /** The argument vector handed to subprocess.run for each command. */
  function Argv(c: Command): (argv: seq<string>)
    ensures |argv| >= 2 && argv[0] == "git"
    ensures "--rebase" in argv <==> c == Pull(true)
  {
    match c
    case Fetch => ["git", "fetch"]
    case Status => ["git", "status", "--porcelain"]
    case RevList => ["git", "rev-list", "--left-right", "--count", "HEAD...@{u}"]
    case Push => ["git", "push"]
    case Pull(rebase) => if rebase then ["git", "pull", "--rebase"] else ["git", "pull"]
  }

  /** Distinct commands are distinct invocations, so a trace of commands
      determines the git invocations issued. */
  lemma ArgvInjective(c: Command, d: Command)
    requires Argv(c) == Argv(d)
    ensures c == d
  {
    assert Argv(c)[1] == Argv(d)[1];
  }

  /** Position of a command in the fixed fetch, status, rev-list, push, pull
      sequence that both update() methods walk. */
  function Stage(c: Command): nat {
    match c
    case Fetch => 0
    case Status => 1
    case RevList => 2
    case Push => 3
    case Pull(_) => 4
  }

  /** Each command is of a later stage than the one before it. */
  predicate InPipelineOrder(trace: seq<Command>) {
    forall i :: 0 < i < |trace| ==> Stage(trace[i - 1]) < Stage(trace[i])
  }

  /** In a trace in pipeline order every command is issued at most once and
      never before a command of an earlier stage. */
  lemma {:induction false} PipelineOrderIsStrict(trace: seq<Command>, i: int, j: int)
    requires InPipelineOrder(trace)
    requires 0 <= i < j < |trace|
    ensures Stage(trace[i]) < Stage(trace[j])
    ensures trace[i] != trace[j]
    decreases j - i
  {
    if i + 1 < j {
      PipelineOrderIsStrict(trace, i, j - 1);
    }
  }

  /** Fetch, status and rev-list followed by commands of the push and pull
      stages is a trace in pipeline order. */
  lemma AfterInspection(inspected: seq<Command>, tail: seq<Command>)
    requires inspected == [Fetch, Status, RevList]
    requires InPipelineOrder(tail)
    requires forall k :: 0 <= k < |tail| ==> Stage(tail[k]) >= 3
    ensures InPipelineOrder(inspected + tail)
  {
    var all := inspected + tail;
    forall i | 0 < i < |all| ensures Stage(all[i - 1]) < Stage(all[i]) {
      if i > 3 {
        assert all[i] == tail[i - 3] && all[i - 1] == tail[i - 4];
      } else if i == 3 {
        assert all[i] == tail[0];
      }
    }
  }

  /** A push or pull stands after fetch, status and rev-list exactly when it
      stands in the tail. */
  lemma MemberAfterInspection(tail: seq<Command>, c: Command)
    requires Stage(c) >= 3
    ensures c in [Fetch, Status, RevList] + tail <==> c in tail
  {
    var all := [Fetch, Status, RevList] + tail;
    if c in all {
      var k :| 0 <= k < |all| && all[k] == c;
      assert all[k] == tail[k - 3];
    }
    if c in tail {
      var k :| 0 <= k < |tail| && tail[k] == c;
      assert all[k + 3] == c;
    }
  }

  /** A trace in pipeline order is determined by which commands it holds. */
  lemma {:induction false} SameTraceByMembership(a: seq<Command>, b: seq<Command>)
    requires InPipelineOrder(a) && InPipelineOrder(b)
    requires forall c :: c in a <==> c in b
    ensures a == b
    decreases |a|
  {
    if a == [] || b == [] {
      NothingInEmpty(a, b);
    } else {
      SameFirstCommand(a, b);
      SameLaterCommands(a, b);
      SameTraceByMembership(a[1..], b[1..]);
      assert a == [a[0]] + a[1..] && b == [b[0]] + b[1..];
    }
  }

  lemma NothingInEmpty(a: seq<Command>, b: seq<Command>)
    requires a == [] || b == []
    requires forall c :: c in a <==> c in b
    ensures a == [] && b == []
  {
    FirstIsMember(a);
    FirstIsMember(b);
  }

  lemma FirstIsMember(s: seq<Command>)
    ensures s != [] ==> s[0] in s
  {
  }

  lemma SameFirstCommand(a: seq<Command>, b: seq<Command>)
    requires InPipelineOrder(a) && InPipelineOrder(b)
    requires a != [] && b != []
    requires forall c :: c in a <==> c in b
    ensures a[0] == b[0]
  {
    assert a[0] in b && b[0] in a;
    var j :| 0 <= j < |b| && b[j] == a[0];
    var i :| 0 <= i < |a| && a[i] == b[0];
    if j > 0 {
      PipelineOrderIsStrict(b, 0, j);
      if i > 0 {
        PipelineOrderIsStrict(a, 0, i);
      }
    }
  }

  lemma SameLaterCommands(a: seq<Command>, b: seq<Command>)
    requires InPipelineOrder(a) && InPipelineOrder(b)
    requires a != [] && b != [] && a[0] == b[0]
    requires forall c :: c in a <==> c in b
    ensures forall c :: c in a[1..] <==> c in b[1..]
  {
    forall c | c in a[1..] ensures c in b[1..] {
      LaterCommand(a, b, c);
    }
    forall c | c in b[1..] ensures c in a[1..] {
      LaterCommand(b, a, c);
    }
  }

  lemma LaterCommand(a: seq<Command>, b: seq<Command>, c: Command)
    requires InPipelineOrder(a)
    requires a != [] && b != [] && a[0] == b[0]
    requires c in a[1..] && c in b
    ensures c in b[1..]
  {
    var k :| 1 <= k < |a| && a[k] == c;
    PipelineOrderIsStrict(a, 0, k);
    var m :| 0 <= m < |b| && b[m] == c;
    assert b[1..][m - 1] == c;
  }

  /** The trace with the pull mode forgotten, for comparing the copy that
      pulls with --rebase against the one that does not. */
  function ForgetPullMode(trace: seq<Command>): (r: seq<Command>)
    ensures |r| == |trace|
    ensures forall k :: 0 <= k < |trace| ==> Stage(r[k]) == Stage(trace[k])
    ensures forall k :: 0 <= k < |trace| ==> !trace[k].Pull? ==> r[k] == trace[k]
    ensures Pull(true) !in r
    ensures forall c: Command :: !c.Pull? ==> (c in r <==> c in trace)
    ensures Pull(false) in r <==> Pull(false) in trace || Pull(true) in trace
    ensures InPipelineOrder(trace) ==> InPipelineOrder(r)
  {
    seq(|trace|, k requires 0 <= k < |trace| => if trace[k].Pull? then Pull(false) else trace[k])
  }

  /** `ahead, behind = map(int, text.split())`: exactly two whitespace-separated
      integers; None stands for the ValueError raised otherwise. */
  function ParseCounts(text: string): (r: Option<(int, int)>)
    ensures r.Some? ==> |Split(text)| == 2
    ensures r.Some? ==> ParseInt(Split(text)[0]) == Some(r.value.0)
    ensures r.Some? ==> ParseInt(Split(text)[1]) == Some(r.value.1)
    ensures r.None? ==> |Split(text)| != 2 || ParseInt(Split(text)[0]).None? || ParseInt(Split(text)[1]).None?
  {
    var words := Split(text);
    if |words| != 2 then None
    else match (ParseInt(words[0]), ParseInt(words[1]))
      case (Some(ahead), Some(behind)) => Some((ahead, behind))
      case _ => None
  }

  /** The text rev-list prints for a pair of counts, "<ahead><tab><behind>"
      or with any other whitespace between them, reads back as that pair. */
  lemma CountsRoundTrip(ahead: int, sep: char, behind: int)
    requires IsSpace(sep)
    ensures ParseCounts(IntToString(ahead) + [sep] + IntToString(behind)) == Some((ahead, behind))
  {
    SplitTwoWords(IntToString(ahead), sep, IntToString(behind));
    ParseIntRoundTrip(ahead);
    ParseIntRoundTrip(behind);
  }
}

=== FILE: loose_update.dfy ===
/** GitRepository.update in terminal/task_automation/git_update.py: the copy
    that never looks at whether fetch, push or pull worked. Those three go
    through GitAutomation.run_command, which reports a failure and carries on,
    so they appear here only as commands issued. */
module LooseUpdate {
  import opened Wrappers
  import opened Text
  import opened GitCommands
  import opened Discovery
  import Batch

  /** What one update() call observes in a repository: whether it still
      holds a ".git" directory, and the standard output of the status and
      rev-list commands, which are run without check=True. */
  datatype Script = Script(isRepo: bool, statusOut: string, revListOut: string)

  /** The message update() ends on. Handled is the branch taken when a count
      is non-zero; Crashed is the ValueError escaping from
      check_branch_status. */
  datatype Outcome = NotARepo | Dirty | UpToDate | Handled | Crashed

  datatype Run = Run(trace: seq<Command>, outcome: Outcome)

  /** check_uncommitted_changes: dirty when the porcelain output, whatever
      git's exit status, holds anything but whitespace. */
  function IsDirty(statusOut: string): (dirty: bool)
    ensures dirty <==> !AllSpace(statusOut)
  {
    Strip(statusOut) != []
  }

  /** check_branch_status: blank output stands for (0, 0); other output must
      be two integers, and None stands for the ValueError. */
  function CheckBranchStatus(revListOut: string): (r: Option<(int, int)>)
    ensures AllSpace(revListOut) ==> r == Some((0, 0))
    ensures !AllSpace(revListOut) ==> r == ParseCounts(Strip(revListOut))
  {
    var result := Strip(revListOut);
    if result == [] then Some((0, 0)) else ParseCounts(result)
  }

  /** The commands update() issues once the counts are known: push when
      ahead, then pull when behind. run_command swallows a failed push, so
      the pull does not depend on it. */
  function PushThenPull(ahead: int, behind: int): (tail: seq<Command>)
    ensures InPipelineOrder(tail)
    ensures forall k :: 0 <= k < |tail| ==> Stage(tail[k]) >= 3
    ensures Push in tail <==> ahead > 0
    ensures Pull(false) in tail <==> behind > 0
    ensures Pull(true) !in tail
  {
    (if ahead > 0 then [Push] else []) + (if behind > 0 then [Pull(false)] else [])
  }

  /** The four possible endings, as a table over the signs of the counts. */
  function ActionTable(ahead: int, behind: int): seq<Command> {
    match (ahead > 0, behind > 0)
    case (false, false) => []
    case (true, false) => [Push]
    case (false, true) => [Pull(false)]
    case (true, true) => [Push, Pull(false)]
  }

  /** Exactly one of nothing, push, pull, or push then pull is issued, chosen
      by whether each count is positive. */
  lemma PushThenPullFollowsTable(ahead: int, behind: int)
    ensures PushThenPull(ahead, behind) == ActionTable(ahead, behind)
  {
  }

  /** The part of update() after the counts are known. */
  function AfterCounts(ahead: int, behind: int): (r: Run)
    ensures InPipelineOrder(r.trace)
    ensures r.trace == [Fetch, Status, RevList] + PushThenPull(ahead, behind)
    ensures Push in r.trace <==> ahead > 0
    ensures Pull(false) in r.trace <==> behind > 0
    ensures Pull(true) !in r.trace
    ensures r.outcome == UpToDate <==> ahead == 0 && behind == 0
    ensures r.outcome == UpToDate || r.outcome == Handled
  {
    var inspected := [Fetch, Status, RevList];
    var tail := PushThenPull(ahead, behind);
    AfterInspection(inspected, tail);
    MemberAfterInspection(tail, Push);
    MemberAfterInspection(tail, Pull(true));
    MemberAfterInspection(tail, Pull(false));
    Run(inspected + tail, if ahead != 0 || behind != 0 then Handled else UpToDate)
  }

  /** The decision sequence of update() over what it observed: stop when not
      a repository or when dirty; otherwise push when ahead and pull when
      behind. The fetch is issued but its result is never looked at. */
  function Decide(isRepo: bool, dirty: bool, counts: Option<(int, int)>): (r: Run)
    ensures InPipelineOrder(r.trace)
    ensures r.trace == [] <==> !isRepo
    ensures isRepo ==> |r.trace| >= 2 && r.trace[0] == Fetch && r.trace[1] == Status
    ensures RevList in r.trace <==> isRepo && !dirty
    ensures Push in r.trace <==> isRepo && !dirty && counts.Some? && counts.value.0 > 0
    ensures Pull(false) in r.trace <==> isRepo && !dirty && counts.Some? && counts.value.1 > 0
    ensures Pull(true) !in r.trace
  {
    if !isRepo then Run([], NotARepo)
    else if dirty then Run([Fetch, Status], Dirty)
    else if counts.None? then Run([Fetch, Status, RevList], Crashed)
    else AfterCounts(counts.value.0, counts.value.1)
  }

  /** The message update() ends on, in terms of what it observed. */
  lemma DecideOutcome(isRepo: bool, dirty: bool, counts: Option<(int, int)>)
    ensures Decide(isRepo, dirty, counts).outcome == NotARepo <==> !isRepo
    ensures Decide(isRepo, dirty, counts).outcome == Dirty <==> isRepo && dirty
    ensures Decide(isRepo, dirty, counts).outcome == Crashed <==> isRepo && !dirty && counts.None?
    ensures Decide(isRepo, dirty, counts).outcome == UpToDate <==> isRepo && !dirty && counts == Some((0, 0))
  {
  }

  /** update() in one repository: what it observes, then what it decides. */
  function Update(s: Script): (r: Run)
    ensures r.outcome == Crashed <==> s.isRepo && !IsDirty(s.statusOut) && CheckBranchStatus(s.revListOut).None?
  {
    DecideOutcome(s.isRepo, IsDirty(s.statusOut), CheckBranchStatus(s.revListOut));
    Decide(s.isRepo, IsDirty(s.statusOut), CheckBranchStatus(s.revListOut))
  }

  /** Whatever the counts, the commands after rev-list are exactly the ones
      the table calls for: none, push, pull, or push then pull. */
  lemma ActionsFollowCounts(s: Script, ahead: int, behind: int)
    requires s.isRepo && !IsDirty(s.statusOut)
    requires CheckBranchStatus(s.revListOut) == Some((ahead, behind))
    ensures |Update(s).trace| >= 3 && Update(s).trace[..3] == [Fetch, Status, RevList]
    ensures Update(s).trace[3..] == ActionTable(ahead, behind)
  {
    PushThenPullFollowsTable(ahead, behind);
    var tail := PushThenPull(ahead, behind);
    assert ([Fetch, Status, RevList] + tail)[3..] == tail;
  }

  /** A rev-list that failed or printed nothing, as when the branch has no
      upstream, is read as (0, 0) and the repository reported up to date. */
  lemma BlankCountsReadAsUpToDate(s: Script)
    requires s.isRepo && !IsDirty(s.statusOut) && AllSpace(s.revListOut)
    ensures Update(s) == Run([Fetch, Status, RevList], UpToDate)
  {
    assert PushThenPull(0, 0) == [];
  }

  /** update_all_repositories over the repositories discovery found. */
  function UpdateAllRepositories(m: Manager, scripts: seq<Script>): (reports: seq<Batch.Report<Run>>)
    requires |scripts| == |m.repositories|
    ensures |reports| <= |m.repositories|
    ensures forall k :: 0 <= k < |reports| ==> reports[k].name == m.repositories[k].name
    ensures forall k :: 0 <= k < |reports| ==> reports[k].result == Update(scripts[k])
    ensures forall k :: 0 <= k < |reports| - 1 ==> reports[k].result.outcome != Crashed
    ensures |reports| < |scripts| ==> |reports| > 0 && reports[|reports| - 1].result.outcome == Crashed
  {
    Batch.UpdateAll(m.repositories, scripts, s => Update(s), (r: Run) => r.outcome == Crashed)
  }

  /** When every repository's rev-list answer is blank or two integers, the
      batch updates every repository. */
  lemma AllUpdatedWhenCountsParse(m: Manager, scripts: seq<Script>)
    requires |scripts| == |m.repositories|
    requires forall k :: 0 <= k < |scripts| ==> CheckBranchStatus(scripts[k].revListOut).Some?
    ensures |UpdateAllRepositories(m, scripts)| == |scripts|
  {
  }

  /** A rev-list answer that is neither blank nor two integers in repository
      k, with none before it, ends the batch there. */
  lemma MalformedCountsEndBatch(m: Manager, scripts: seq<Script>, k: nat)
    requires |scripts| == |m.repositories| && k < |scripts|
    requires Update(scripts[k]).outcome == Crashed
    requires forall j :: 0 <= j < k ==> Update(scripts[j]).outcome != Crashed
    ensures |UpdateAllRepositories(m, scripts)| == k + 1
  {
  }
}

=== FILE: quarter_rename.dfy ===
/** terminal/system-monitoring/bulk_rename.py: always four threads, each
    given count // 4 indices, the last one also taking the remainder. Its
    workers catch nothing, so a failure ends that thread's work. */
module QuarterRename {
  import opened Slices
  import opened Workers

  const NumThreads: nat := 4

  /** The slice of thread t: [t * per, t * per + per), except that the last
      thread's slice ends at count. Python's // floors, as Dafny's / does
      for a positive divisor. */
  function QuarterSlice(count: int, t: nat): (s: Slice)
    requires t < NumThreads
    ensures s.threadId == t && s.start == t * (count / NumThreads)
  {
    var per := count / NumThreads;
    var start := t * per;
    Slice(t, start, if t == NumThreads - 1 then count else start + per)
  }

  /** The four slices rename_files and create_files start threads with. */
  function QuarterSlices(count: int): (slices: seq<Slice>)
    ensures |slices| == NumThreads && Numbered(slices)
    ensures forall t :: 0 <= t < NumThreads ==> slices[t] == QuarterSlice(count, t)
  {
    [QuarterSlice(count, 0), QuarterSlice(count, 1), QuarterSlice(count, 2), QuarterSlice(count, 3)]
  }

  /** For any count of zero or more the four slices partition 0 .. count - 1. */
  lemma QuarterSlicesPartition(count: int)
    requires count >= 0
    ensures Partitions(QuarterSlices(count), count)
  {
    var slices := QuarterSlices(count);
    var per := count / NumThreads;
    assert 0 <= per && 4 * per <= count;
    assert slices[0] == Slice(0, 0, per);
    assert slices[1] == Slice(1, per, 2 * per);
    assert slices[2] == Slice(2, 2 * per, 3 * per);
    assert slices[3] == Slice(3, 3 * per, count);
    forall i | 0 <= i < count ensures Covered(slices, i) {
      if i < per {
        assert InSlice(slices[0], i);
      } else if i < 2 * per {
        assert InSlice(slices[1], i);
      } else if i < 3 * per {
        assert InSlice(slices[2], i);
      } else {
        assert InSlice(slices[3], i);
      }
    }
  }

  /** The first three threads get count // 4 indices each, the last one
      count // 4 + count % 4. */
  lemma QuarterSizes(count: int)
    requires count >= 0
    ensures forall t :: 0 <= t < NumThreads - 1 ==> Size(QuarterSlices(count)[t]) == count / NumThreads
    ensures Size(QuarterSlices(count)[NumThreads - 1]) == count / NumThreads + count % NumThreads
  {
    var slices := QuarterSlices(count);
    var per := count / NumThreads;
    assert slices[0] == Slice(0, 0, per);
    assert slices[1] == Slice(1, per, 2 * per);
    assert slices[2] == Slice(2, 2 * per, 3 * per);
    assert slices[3] == Slice(3, 3 * per, count);
  }

  /** Fewer than four files all go to the last thread. */
  lemma SmallCountGoesToLastThread(count: int)
    requires 0 <= count < NumThreads
    ensures forall t :: 0 <= t < NumThreads - 1 ==> Size(QuarterSlices(count)[t]) == 0
    ensures QuarterSlices(count)[NumThreads - 1] == Slice(3, 0, count)
  {
  }

  /** A negative count is not refused: with count -1 the last thread's slice
      is [-3, -1), so create_files makes two files with negative indices. */
  lemma NegativeCountCreatesFiles()
    ensures QuarterSlices(-1)[NumThreads - 1] == Slice(3, -3, -1)
    ensures Size(QuarterSlices(-1)[NumThreads - 1]) == 2
  {
  }

  /** rename_files: the listed files split four ways, each thread stopping
      at its first failed rename. */
  function RenameFiles(listing: seq<FolderEntry>, newName: string, extension: string, ok: int -> bool)
    : (logs: seq<seq<Event>>)
    ensures |logs| == NumThreads
    ensures forall t :: 0 <= t < NumThreads ==> StopsAtFirstFailure(logs[t], QuarterSlices(|Files(listing)|)[t], newName, extension, ok)
  {
    var slices := QuarterSlices(|Files(listing)|);
    seq(NumThreads, t requires 0 <= t < NumThreads => UncaughtWorker(slices[t], newName, extension, ok))
  }

  /** create_files: the same four-way split over 0 .. count - 1. */
  function CreateFiles(count: int, newName: string, extension: string, ok: int -> bool): (logs: seq<seq<Event>>)
    ensures |logs| == NumThreads
    ensures forall t :: 0 <= t < NumThreads ==> StopsAtFirstFailure(logs[t], QuarterSlices(count)[t], newName, extension, ok)
  {
    var slices := QuarterSlices(count);
    seq(NumThreads, t requires 0 <= t < NumThreads => UncaughtWorker(slices[t], newName, extension, ok))
  }

  /** When no filesystem call fails, rename_files attempts every listed file
      exactly once, each under its own target name. */
  lemma RenameFilesWithoutFailures(listing: seq<FolderEntry>, newName: string, extension: string, ok: int -> bool)
    requires forall i :: 0 <= i < |Files(listing)| ==> ok(i)
    ensures RenameFiles(listing, newName, extension, ok) == CaughtLogs(QuarterSlices(|Files(listing)|), newName, extension, ok)
    ensures forall i :: 0 <= i < |Files(listing)| ==> Attempted(RenameFiles(listing, newName, extension, ok), i)
  {
    var total := |Files(listing)|;
    var slices := QuarterSlices(total);
    QuarterSlicesPartition(total);
    forall t | 0 <= t < NumThreads
      ensures UncaughtWorker(slices[t], newName, extension, ok) == CaughtWorker(slices[t], newName, extension, ok)
    {
      forall i | InSlice(slices[t], i) ensures ok(i) {
        assert 0 <= i < total;
      }
      UncaughtMatchesCaughtWithoutFailures(slices[t], newName, extension, ok);
    }
    CaughtLogsCover(slices, total, newName, extension, ok);
  }
}

=== FILE: slices.dfy ===
/** The index ranges `range(start_index, end_index)` that both bulk-rename
    scripts hand to their worker threads, and what it means for them to
    share out the indices 0 .. total - 1. */
module Slices {

  /** The arguments one worker thread is started with. */
  datatype Slice = Slice(threadId: nat, start: int, end: int)

  /** Index i is visited by the worker's `for i in range(start, end)`. */
  predicate InSlice(s: Slice, i: int) {
    s.start <= i < s.end
  }

  /** len(range(start, end)). */
  function Size(s: Slice): (n: nat)
    ensures n > 0 <==> InSlice(s, s.start)
    ensures n == 0 ==> forall i :: !InSlice(s, i)
    ensures n > 0 ==> InSlice(s, s.end - 1)
  {
    if s.end > s.start then s.end - s.start else 0
  }

  /** The slices are numbered 0, 1, ... in the order the threads start. */
  predicate Numbered(slices: seq<Slice>) {
    forall t :: 0 <= t < |slices| ==> slices[t].threadId == t
  }

  /** Some slice visits index i. */
  ghost predicate Covered(slices: seq<Slice>, i: int) {
    exists t :: 0 <= t < |slices| && InSlice(slices[t], i)
  }

  /** Every index below total is visited by exactly one slice, and no slice
      visits anything else. */
  ghost predicate Partitions(slices: seq<Slice>, total: int) {
    && (forall t, i :: 0 <= t < |slices| && InSlice(slices[t], i) ==> 0 <= i < total)
    && (forall i :: 0 <= i < total ==> Covered(slices, i))
    && (forall t, u, i :: 0 <= t < u < |slices| && InSlice(slices[t], i) ==> !InSlice(slices[u], i))
  }

  /** In a partition the slice visiting an index is unique. */
  lemma OwnerIsUnique(slices: seq<Slice>, total: int, t: int, u: int, i: int)
    requires Partitions(slices, total)
    requires 0 <= t < |slices| && 0 <= u < |slices|
    requires InSlice(slices[t], i) && InSlice(slices[u], i)
    ensures t == u
  {
  }
}

=== FILE: strict_update.dfy ===
/** GitRepository.update in terminal/task-automation/git-update.py: the copy
    that stops at the first step it judges failed. Each step's success is
    judged by the truth of what run_git_command returns, the stripped
    standard output, rather than by git's exit status. */
module StrictUpdate {
  import opened Wrappers
  import opened Text
  import opened GitCommands
  import opened Discovery
  import Batch

  /** What one subprocess.run call of git reports: whether it exited with
      status 0, and what it wrote to standard output. */
  datatype Proc = Proc(exitOk: bool, stdout: string)

  /** run_git_command: the stripped standard output when git exits with
      status 0; None when check=True turns another status into
      CalledProcessError. */
  function RunGitCommand(p: Proc): (r: Option<string>)
    ensures r.None? <==> !p.exitOk
    ensures r.Some? ==> (r.value == [] <==> AllSpace(p.stdout))
    ensures r.Some? ==> |r.value| <= |p.stdout|
  {
    if p.exitOk then Some(Strip(p.stdout)) else None
  }

  /** Python truthiness of what run_git_command returned: neither None nor
      the empty string. */
  predicate Truthy(o: Option<string>) {
    o.Some? && o.value != []
  }

  /** How update() decides that fetch, push or pull worked. ByStdout is the
      code as written; ByExitStatus is the evidently intended reading. */
  datatype Judge = ByStdout | ByExitStatus

  predicate Succeeded(judge: Judge, p: Proc) {
    match judge
    case ByStdout => Truthy(RunGitCommand(p))
    case ByExitStatus => p.exitOk
  }

  /** check_uncommitted_changes: dirty when the porcelain listing holds
      anything but whitespace. A status command that fails yields None,
      which counts as clean. */
  function IsDirty(status: Proc): (dirty: bool)
    ensures dirty <==> status.exitOk && !AllSpace(status.stdout)
  {
    Truthy(RunGitCommand(status))
  }

  /** The answer of check_branch_status: two counts, (None, None), or the
      ValueError that `map(int, result.split())` raises on other text. */
  datatype BranchStatus = Counts(ahead: int, behind: int) | Unknown | Malformed

  /** check_branch_status: a failed or blank rev-list answer is unknown;
      otherwise it must be two integers. */
  function CheckBranchStatus(revList: Proc): (r: BranchStatus)
    ensures r.Unknown? <==> !revList.exitOk || AllSpace(revList.stdout)
    ensures r.Counts? ==> revList.exitOk && ParseCounts(Strip(revList.stdout)) == Some((r.ahead, r.behind))
    ensures r.Malformed? ==> revList.exitOk && ParseCounts(Strip(revList.stdout)).None?
  {
    var result := RunGitCommand(revList);
    if !Truthy(result) then Unknown
    else match ParseCounts(result.value)
      case Some((ahead, behind)) => Counts(ahead, behind)
      case None => Malformed
  }

  /** What git rev-list prints, two counts separated by a tab and ended by a
      newline, reads as those counts. */
  lemma BranchStatusReadsRevList(ahead: int, behind: int)
    ensures CheckBranchStatus(Proc(true, IntToString(ahead) + "\t" + IntToString(behind) + "\n")) == Counts(ahead, behind)
  {
    var a := IntToString(ahead);
    var b := IntToString(behind);
    var counts := a + "\t" + b;
    assert counts[0] == a[0] && counts[|counts| - 1] == b[|b| - 1];
    StripPadded("", counts, "\n");
    assert "" + counts + "\n" == counts + "\n";
    CountsRoundTrip(ahead, '\t', behind);
    ReadsAsCounts(counts + "\n", counts, ahead, behind);
  }

  /** The same counts separated by a single space, as in "a b". */
  lemma BranchStatusReadsSpacedPair(ahead: int, behind: int)
    ensures CheckBranchStatus(Proc(true, IntToString(ahead) + " " + IntToString(behind))) == Counts(ahead, behind)
  {
    var a := IntToString(ahead);
    var b := IntToString(behind);
    var counts := a + " " + b;
    assert counts[0] == a[0] && counts[|counts| - 1] == b[|b| - 1];
    StripPadded("", counts, "");
    assert "" + counts + "" == counts;
    CountsRoundTrip(ahead, ' ', behind);
    ReadsAsCounts(counts, counts, ahead, behind);
  }

  lemma ReadsAsCounts(stdout: string, stripped: string, ahead: int, behind: int)
    requires Strip(stdout) == stripped && stripped != []
    requires ParseCounts(stripped) == Some((ahead, behind))
    ensures CheckBranchStatus(Proc(true, stdout)) == Counts(ahead, behind)
  {
    assert RunGitCommand(Proc(true, stdout)) == Some(stripped);
  }

  /** What the commands of one update() call would answer in one repository,
      together with whether it still holds a ".git" directory. */
  datatype Script = Script(isRepo: bool, fetch: Proc, status: Proc, revList: Proc, push: Proc, pull: Proc)

  /** The message update() ends on. Crashed is the ValueError escaping from
      check_branch_status. */
  datatype Outcome = NotARepo | FetchFailed | Dirty | UnknownBranchStatus | PushFailed | PullFailed | UpToDate | Crashed

  /** The git commands issued, in order, and the outcome. */
  datatype Run = Run(trace: seq<Command>, outcome: Outcome)

  /** What update() has learned about a repository by the time each decision
      is taken: every step's answer as update() judges it. */
  datatype Observed = Observed(isRepo: bool, fetched: bool, dirty: bool, counts: BranchStatus, pushed: bool, pulled: bool)

  function Observe(judge: Judge, s: Script): Observed {
    Observed(s.isRepo, Succeeded(judge, s.fetch), IsDirty(s.status), CheckBranchStatus(s.revList),
             Succeeded(judge, s.push), Succeeded(judge, s.pull))
  }

  /** The push-then-pull tail of update() once both counts are known: push
      when ahead, and pull --rebase when behind unless the push failed. */
  function PushThenPull(pushed: bool, pulled: bool, ahead: int, behind: int): (r: Run)
    ensures InPipelineOrder(r.trace)
    ensures forall k :: 0 <= k < |r.trace| ==> Stage(r.trace[k]) >= 3
    ensures Push in r.trace <==> ahead > 0
    ensures Pull(true) in r.trace <==> behind > 0 && (ahead > 0 ==> pushed)
    ensures Pull(false) !in r.trace
    ensures r.outcome == PushFailed <==> ahead > 0 && !pushed
    ensures r.outcome == PullFailed <==> Pull(true) in r.trace && !pulled
    ensures r.outcome == PushFailed || r.outcome == PullFailed || r.outcome == UpToDate
  {
    if ahead > 0 && !pushed then Run([Push], PushFailed)
    else
      var pushedTrace := if ahead > 0 then [Push] else [];
      if behind > 0 && !pulled then Run(pushedTrace + [Pull(true)], PullFailed)
      else Run(pushedTrace + (if behind > 0 then [Pull(true)] else []), UpToDate)
  }

  /** A run that got through fetch, the dirty check and rev-list with both
      counts, then went on to push and pull. */
  function AfterCounts(pushed: bool, pulled: bool, ahead: int, behind: int): (r: Run)
    ensures InPipelineOrder(r.trace)
    ensures |r.trace| >= 3 && r.trace[..3] == [Fetch, Status, RevList]
    ensures r.trace[0] == Fetch && Status in r.trace && RevList in r.trace
    ensures Push in r.trace <==> ahead > 0
    ensures Pull(true) in r.trace <==> behind > 0 && (ahead > 0 ==> pushed)
    ensures Pull(false) !in r.trace
    ensures r.outcome == PushFailed <==> ahead > 0 && !pushed
    ensures r.outcome == PullFailed <==> Pull(true) in r.trace && !pulled
    ensures r.outcome == PushFailed || r.outcome == PullFailed || r.outcome == UpToDate
  {
    var inspected := [Fetch, Status, RevList];
    var tail := PushThenPull(pushed, pulled, ahead, behind);
    AfterInspection(inspected, tail.trace);
    MemberAfterInspection(tail.trace, Push);
    MemberAfterInspection(tail.trace, Pull(true));
    MemberAfterInspection(tail.trace, Pull(false));
    var trace := inspected + tail.trace;
    assert trace[..3] == inspected;
    assert trace[0] == Fetch && trace[1] == Status && trace[2] == RevList;
    Run(trace, tail.outcome)
  }

  /** The decision sequence of update() over what it observed: stop when not a
      repository, when the fetch failed, when dirty, when the counts are
      unknown; otherwise push when ahead and pull when behind. */
  function Decide(o: Observed): (r: Run)
    ensures InPipelineOrder(r.trace)
    ensures r.trace == [] <==> !o.isRepo
    ensures o.isRepo ==> r.trace[0] == Fetch
    ensures o.isRepo && !o.fetched ==> r == Run([Fetch], FetchFailed)
    ensures Status in r.trace <==> o.isRepo && o.fetched
    ensures RevList in r.trace <==> o.isRepo && o.fetched && !o.dirty
    ensures Push in r.trace <==> RevList in r.trace && o.counts.Counts? && o.counts.ahead > 0
    ensures Pull(true) in r.trace <==>
              RevList in r.trace && o.counts.Counts? && o.counts.behind > 0 && (o.counts.ahead > 0 ==> o.pushed)
    ensures Pull(false) !in r.trace
  {
    if !o.isRepo then Run([], NotARepo)
    else if !o.fetched then Run([Fetch], FetchFailed)
    else if o.dirty then Run([Fetch, Status], Dirty)
    else if o.counts.Unknown? then Run([Fetch, Status, RevList], UnknownBranchStatus)
    else if o.counts.Malformed? then Run([Fetch, Status, RevList], Crashed)
    else
      AfterCounts(o.pushed, o.pulled, o.counts.ahead, o.counts.behind)
  }

  /** The message update() ends on, in terms of what it observed and which
      commands it issued. */
  lemma DecideOutcome(o: Observed)
    ensures Decide(o).outcome == NotARepo <==> !o.isRepo
    ensures Decide(o).outcome == Dirty <==> o.isRepo && o.fetched && o.dirty
    ensures Decide(o).outcome == UnknownBranchStatus <==> RevList in Decide(o).trace && o.counts.Unknown?
    ensures Decide(o).outcome == Crashed <==> RevList in Decide(o).trace && o.counts.Malformed?
    ensures Decide(o).outcome == PushFailed <==> Push in Decide(o).trace && !o.pushed
    ensures Decide(o).outcome == PullFailed <==> Pull(true) in Decide(o).trace && !o.pulled
    ensures Decide(o).outcome == UpToDate <==>
              RevList in Decide(o).trace && o.counts.Counts? && Decide(o).outcome != PushFailed && Decide(o).outcome != PullFailed
  {
  }

  /** The pipeline got as far as the ahead/behind decision with both counts. */
  predicate CountsKnown(judge: Judge, s: Script) {
    s.isRepo && Succeeded(judge, s.fetch) && !IsDirty(s.status) && CheckBranchStatus(s.revList).Counts?
  }

  /** update() in one repository, each step judged by `judge`. */
  function Pipeline(judge: Judge, s: Script): (r: Run)
    ensures InPipelineOrder(r.trace) && Pull(false) !in r.trace
    ensures r.trace == [] <==> !s.isRepo
    ensures s.isRepo ==> r.trace[0] == Fetch
    ensures s.isRepo && !Succeeded(judge, s.fetch) ==> r == Run([Fetch], FetchFailed)
    ensures Status in r.trace <==> s.isRepo && Succeeded(judge, s.fetch)
    ensures RevList in r.trace <==> Status in r.trace && !IsDirty(s.status)
    ensures Push in r.trace <==> CountsKnown(judge, s) && CheckBranchStatus(s.revList).ahead > 0
    ensures Pull(true) in r.trace <==>
              && CountsKnown(judge, s)
              && CheckBranchStatus(s.revList).behind > 0
              && (CheckBranchStatus(s.revList).ahead > 0 ==> Succeeded(judge, s.push))
    ensures r.outcome == Crashed <==> RevList in r.trace && CheckBranchStatus(s.revList).Malformed?
    ensures r.outcome == PushFailed <==> Push in r.trace && !Succeeded(judge, s.push)
    ensures r.outcome == PullFailed <==> Pull(true) in r.trace && !Succeeded(judge, s.pull)
    ensures r.outcome == UpToDate <==>
              CountsKnown(judge, s) && r.outcome != PushFailed && r.outcome != PullFailed
  {
    DecideOutcome(Observe(judge, s));
    Decide(Observe(judge, s))
  }

  /** As written, a fetch that exits with status 0 but prints nothing on
      standard output is taken for a failure and the repository is skipped;
      git fetch writes its progress to standard error. */
  lemma SilentFetchSkipsRepository(s: Script)
    requires s.isRepo && s.fetch == Proc(true, "")
    ensures Pipeline(ByStdout, s) == Run([Fetch], FetchFailed)
  {
  }

  /** As written, a push that exits with status 0 but prints nothing on
      standard output ends the run as a failed push, so a branch both ahead
      and behind is never pulled. */
  lemma SilentPushBlocksPull(s: Script)
    requires CountsKnown(ByStdout, s)
    requires CheckBranchStatus(s.revList).ahead > 0 && CheckBranchStatus(s.revList).behind > 0
    requires s.push == Proc(true, "")
    ensures Pipeline(ByStdout, s).outcome == PushFailed
    ensures Pull(true) !in Pipeline(ByStdout, s).trace
  {
  }

  /** Judged by exit status, a fetch that exits with status 0 always lets
      the run go on to the dirty check, and a branch both ahead and behind
      whose push exits with status 0 is pulled. */
  lemma ExitStatusJudgesSteps(s: Script)
    requires s.isRepo && s.fetch.exitOk
    ensures Status in Pipeline(ByExitStatus, s).trace
    ensures CountsKnown(ByExitStatus, s) && s.push.exitOk && CheckBranchStatus(s.revList).behind > 0
            ==> Pull(true) in Pipeline(ByExitStatus, s).trace
  {
  }

  /** The two judges differ only on steps that succeed silently: when every
      successful fetch, push and pull prints something, they agree. */
  lemma JudgesAgreeWhenGitSpeaks(s: Script)
    requires s.fetch.exitOk ==> !AllSpace(s.fetch.stdout)
    requires s.push.exitOk ==> !AllSpace(s.push.stdout)
    requires s.pull.exitOk ==> !AllSpace(s.pull.stdout)
    ensures Pipeline(ByStdout, s) == Pipeline(ByExitStatus, s)
  {
    assert Succeeded(ByStdout, s.fetch) == Succeeded(ByExitStatus, s.fetch);
    assert Succeeded(ByStdout, s.push) == Succeeded(ByExitStatus, s.push);
    assert Succeeded(ByStdout, s.pull) == Succeeded(ByExitStatus, s.pull);
  }

  /** update_all_repositories over the repositories discovery found. */
  function UpdateAllRepositories(judge: Judge, m: Manager, scripts: seq<Script>): (reports: seq<Batch.Report<Run>>)
    requires |scripts| == |m.repositories|
    ensures |reports| <= |m.repositories|
    ensures forall k :: 0 <= k < |reports| ==> reports[k].name == m.repositories[k].name
    ensures forall k :: 0 <= k < |reports| ==> reports[k].result == Pipeline(judge, scripts[k])
    ensures forall k :: 0 <= k < |reports| - 1 ==> reports[k].result.outcome != Crashed
    ensures |reports| < |scripts| ==> |reports| > 0 && reports[|reports| - 1].result.outcome == Crashed
  {
    Batch.UpdateAll(m.repositories, scripts, s => Pipeline(judge, s), (r: Run) => r.outcome == Crashed)
  }

  /** Only a malformed rev-list answer makes update() crash, so with none the
      batch updates every repository. */
  lemma AllUpdatedWithoutMalformed(judge: Judge, m: Manager, scripts: seq<Script>)
    requires |scripts| == |m.repositories|
    requires forall k :: 0 <= k < |scripts| ==> !CheckBranchStatus(scripts[k].revList).Malformed?
    ensures |UpdateAllRepositories(judge, m, scripts)| == |scripts|
  {
  }


  /** A malformed rev-list answer in repository k, with none before it, ends
      the batch there: no repository after k is updated. */
  lemma MalformedCountsEndBatch(judge: Judge, m: Manager, scripts: seq<Script>, k: nat)
    requires |scripts| == |m.repositories| && k < |scripts|
    requires Pipeline(judge, scripts[k]).outcome == Crashed
    requires forall j :: 0 <= j < k ==> Pipeline(judge, scripts[j]).outcome != Crashed
    ensures |UpdateAllRepositories(judge, m, scripts)| == k + 1
  {
  }
}

=== FILE: text.dfy ===
/** The Python string primitives the scripts rely on: str.isspace, strip(),
    split() with no argument, lower(), the `in` test on strings, str() of an
    int and int() of a token. */
module Text {
  import opened Wrappers

  /** The characters for which str.isspace() holds; strip() and split() with
      no argument treat exactly these as whitespace. */
  predicate IsSpace(c: char) {
    || c == ' ' || c == '\t' || c == '\n' || c == '\r'
    || c == '\U{000B}' || c == '\U{000C}'
    || ('\U{001C}' <= c <= '\U{001F}')
    || c == '\U{0085}' || c == '\U{00A0}' || c == '\U{1680}'
    || ('\U{2000}' <= c <= '\U{200A}')
    || c == '\U{2028}' || c == '\U{2029}' || c == '\U{202F}'
    || c == '\U{205F}' || c == '\U{3000}'
  }

  predicate AllSpace(s: string) {
    forall i :: 0 <= i < |s| ==> IsSpace(s[i])
  }

  predicate NoSpace(s: string) {
    forall i :: 0 <= i < |s| ==> !IsSpace(s[i])
  }

  /** s with its leading whitespace removed. */
  function TrimLeft(s: string): (r: string)
    ensures |r| <= |s| && r == s[|s| - |r|..]
    ensures AllSpace(s[..|s| - |r|])
    ensures r == [] || !IsSpace(r[0])
  {
    if s != [] && IsSpace(s[0]) then
      var r := TrimLeft(s[1..]);
      assert s[..|s| - |r|] == [s[0]] + s[1..][..|s| - 1 - |r|];
      r
    else s
  }

  /** s with its trailing whitespace removed. */
  function TrimRight(s: string): (r: string)
    ensures |r| <= |s| && r == s[..|r|]
    ensures AllSpace(s[|r|..])
    ensures r == [] || !IsSpace(r[|r| - 1])
  {
    if s != [] && IsSpace(s[|s| - 1]) then
      var r := TrimRight(s[..|s| - 1]);
      assert s[|r|..] == s[..|s| - 1][|r|..] + [s[|s| - 1]];
      r
    else s
  }

  /** str.strip(): the text between the leading and the trailing whitespace.
      It is empty exactly when s holds nothing but whitespace, which is when
      Python judges the stripped text false. */
  function Strip(s: string): (r: string)
    ensures r == [] <==> AllSpace(s)
    ensures r != [] ==> !IsSpace(r[0]) && !IsSpace(r[|r| - 1])
    ensures |r| <= |s|
  {
    var left := TrimLeft(s);
    var r := TrimRight(left);
    assert r == [] ==> s == s[..|s| - |left|] + left[|r|..];
    assert r != [] ==> !AllSpace(s) by {
      if r != [] {
        assert left[0] == s[|s| - |left|];
      }
    }
    r
  }

  /** Strip removes exactly the whitespace padding around a text that does not
      itself start or end with whitespace. */
  lemma {:induction false} StripPadded(pre: string, x: string, post: string)
    requires AllSpace(pre) && AllSpace(post)
    requires x != [] && !IsSpace(x[0]) && !IsSpace(x[|x| - 1])
    ensures Strip(pre + x + post) == x
  {
    TrimLeftPadded(pre, x + post);
    assert pre + x + post == pre + (x + post);
    TrimRightPadded(x, post);
  }

  lemma {:induction false} TrimLeftPadded(pre: string, y: string)
    requires AllSpace(pre)
    requires y == [] || !IsSpace(y[0])
    ensures TrimLeft(pre + y) == y
    decreases |pre|
  {
    if pre != [] {
      assert (pre + y)[1..] == pre[1..] + y;
      TrimLeftPadded(pre[1..], y);
    }
  }

  lemma {:induction false} TrimRightPadded(x: string, post: string)
    requires AllSpace(post)
    requires x == [] || !IsSpace(x[|x| - 1])
    ensures TrimRight(x + post) == x
    decreases |post|
  {
    if post != [] {
      var shorter := post[..|post| - 1];
      assert (x + post)[..|x + post| - 1] == x + shorter;
      TrimRightPadded(x, shorter);
    } else {
      assert x + post == x;
    }
  }

  /** Length of the leading run of non-whitespace characters of s. */
  function WordLength(s: string): (n: nat)
    ensures n <= |s| && NoSpace(s[..n])
    ensures n < |s| ==> IsSpace(s[n])
    ensures s != [] && !IsSpace(s[0]) ==> n > 0
  {
    if s == [] || IsSpace(s[0]) then 0
    else
      var n := 1 + WordLength(s[1..]);
      assert s[..n] == [s[0]] + s[1..][..n - 1];
      n
  }

  /** str.split() with no argument: the maximal runs of non-whitespace
      characters, in order. */
  function Split(s: string): (words: seq<string>)
    ensures forall k :: 0 <= k < |words| ==> words[k] != [] && NoSpace(words[k])
    ensures words == [] <==> AllSpace(s)
    decreases |s|
  {
    if s == [] then []
    else if IsSpace(s[0]) then
      var words := Split(s[1..]);
      assert AllSpace(s[1..]) ==> AllSpace(s) by {
        if AllSpace(s[1..]) {
          forall i | 0 <= i < |s| ensures IsSpace(s[i]) {
            if i > 0 { assert s[i] == s[1..][i - 1]; }
          }
        }
      }
      words
    else
      var n := WordLength(s);
      [s[..n]] + Split(s[n..])
  }

  /** Splitting a word, one whitespace character and a second word gives
      back the two words. */
  lemma {:induction false} SplitTwoWords(a: string, sep: char, b: string)
    requires a != [] && NoSpace(a) && b != [] && NoSpace(b) && IsSpace(sep)
    ensures Split(a + [sep] + b) == [a, b]
  {
    var s := a + [sep] + b;
    WordLengthOfWord(a, [sep] + b);
    assert s == a + ([sep] + b);
    assert s[..|a|] == a;
    assert s[|a|..] == [sep] + b;
    assert ([sep] + b)[1..] == b;
    WordLengthOfWord(b, []);
    assert b + [] == b;
    assert b[..|b|] == b && b[|b|..] == [];
    assert Split(b) == [b];
    assert Split([sep] + b) == [b];
    assert Split(s) == [a] + Split([sep] + b);
  }

  lemma {:induction false} WordLengthOfWord(w: string, rest: string)
    requires NoSpace(w)
    requires rest == [] || IsSpace(rest[0])
    ensures WordLength(w + rest) == |w|
    decreases |w|
  {
    if w != [] {
      assert (w + rest)[0] == w[0];
      assert (w + rest)[1..] == w[1..] + rest;
      WordLengthOfWord(w[1..], rest);
    } else {
      assert w + rest == rest;
    }
  }

  /** Leading whitespace makes no word: split() skips it. */
  lemma {:induction false} SplitSkipsSpace(pre: string, rest: string)
    requires AllSpace(pre)
    ensures Split(pre + rest) == Split(rest)
    decreases |pre|
  {
    if pre != [] {
      assert (pre + rest)[0] == pre[0];
      assert (pre + rest)[1..] == pre[1..] + rest;
      SplitSkipsSpace(pre[1..], rest);
    } else {
      assert pre + rest == rest;
    }
  }

  /** After any leading whitespace, split() yields the first maximal word and
      then the words of the rest: together with Split's own contract this
      fixes the words of every text, in order. */
  lemma {:induction false} SplitWordThenRest(pre: string, w: string, rest: string)
    requires AllSpace(pre)
    requires w != [] && NoSpace(w)
    requires rest == [] || IsSpace(rest[0])
    ensures Split(pre + w + rest) == [w] + Split(rest)
  {
    assert pre + w + rest == pre + (w + rest);
    SplitSkipsSpace(pre, w + rest);
    var s := w + rest;
    WordLengthOfWord(w, rest);
    assert s[0] == w[0];
    assert s[..|w|] == w;
    assert s[|w|..] == rest;
  }

  /** ASCII case mapping of str.lower(). */
  function LowerChar(c: char): (l: char)
    ensures !('A' <= l <= 'Z')
    ensures !('A' <= c <= 'Z') ==> l == c
  {
    if 'A' <= c <= 'Z' then (c as int + 32) as char else c
  }

  /** str.lower(), character by character. */
  function Lower(s: string): (r: string)
    ensures |r| == |s|
    ensures forall i :: 0 <= i < |s| ==> r[i] == LowerChar(s[i])
    ensures forall i :: 0 <= i < |r| ==> !('A' <= r[i] <= 'Z')
    ensures forall i :: 0 <= i < |s| && !('A' <= s[i] <= 'Z') ==> r[i] == s[i]
  {
    seq(|s|, i requires 0 <= i < |s| => LowerChar(s[i]))
  }

  /** `needle in hay` for strings: needle occurs somewhere in hay. */
  predicate Contains(hay: string, needle: string)
    decreases |hay|
  {
    needle <= hay || (hay != [] && Contains(hay[1..], needle))
  }

  /** An occurrence of needle at position i makes `needle in hay` true. */
  lemma {:induction false} ContainsAt(hay: string, needle: string, i: nat)
    requires i + |needle| <= |hay| && hay[i..i + |needle|] == needle
    ensures Contains(hay, needle)
    decreases i
  {
    if i == 0 {
      assert hay[..|needle|] == needle;
    } else {
      assert hay[1..][i - 1..i - 1 + |needle|] == hay[i..i + |needle|];
      ContainsAt(hay[1..], needle, i - 1);
    }
  }

  /** Conversely, `needle in hay` is true only at some occurrence of
      needle: the position returned. */
  lemma {:induction false} ContainsOccurs(hay: string, needle: string) returns (i: nat)
    requires Contains(hay, needle)
    ensures i + |needle| <= |hay| && hay[i..i + |needle|] == needle
    decreases |hay|
  {
    if needle <= hay {
      i := 0;
      assert hay[..|needle|] == needle;
    } else {
      var j := ContainsOccurs(hay[1..], needle);
      i := j + 1;
      assert hay[1..][j..j + |needle|] == hay[i..i + |needle|];
    }
  }

  /** A needle longer than hay never occurs in it. */
  lemma {:induction false} ContainsNeedsRoom(hay: string, needle: string)
    requires |hay| < |needle|
    ensures !Contains(hay, needle)
    decreases |hay|
  {
    if hay != [] {
      ContainsNeedsRoom(hay[1..], needle);
    }
  }

  predicate IsDigit(c: char) {
    '0' <= c <= '9'
  }

  predicate AllDigits(s: string) {
    forall i :: 0 <= i < |s| ==> IsDigit(s[i])
  }

  function DigitValue(c: char): nat
    requires IsDigit(c)
  {
    c as int - '0' as int
  }

  function DigitChar(d: nat): (c: char)
    requires d < 10
    ensures IsDigit(c) && DigitValue(c) == d
  {
    (d + '0' as int) as char
  }

  /** The value of a string of decimal digits, most significant first. */
  function DecimalValue(s: string): nat
    requires AllDigits(s)
    decreases |s|
  {
    if s == [] then 0 else 10 * DecimalValue(s[..|s| - 1]) + DigitValue(s[|s| - 1])
  }

  /** The decimal digits of n with no leading zero. */
  function NatToDecimal(n: nat): (s: string)
    ensures s != [] && AllDigits(s)
  {
    if n < 10 then [DigitChar(n)] else NatToDecimal(n / 10) + [DigitChar(n % 10)]
  }

  /** str(n) for an int: a minus sign for negatives, then the decimal digits. */
  function IntToString(n: int): (s: string)
    ensures s != [] && NoSpace(s)
    ensures '_' !in s
  {
    var digits := NatToDecimal(if n < 0 then -n else n);
    var s := if n < 0 then "-" + digits else digits;
    assert forall i :: 0 <= i < |s| ==> s[i] == '-' || IsDigit(s[i]);
    s
  }

  /** int(token) for a whitespace-free token: an optional sign followed by one
      or more ASCII digits; None stands for the ValueError. */
  function ParseInt(token: string): (r: Option<int>)
    ensures r.Some? ==> token != [] && (IsDigit(token[0]) || token[0] == '+' || token[0] == '-')
  {
    if token != [] && (token[0] == '+' || token[0] == '-') then
      var body := token[1..];
      if body != [] && AllDigits(body) then
        var magnitude: int := DecimalValue(body);
        Some(if token[0] == '-' then -magnitude else magnitude)
      else None
    else if token != [] && AllDigits(token) then Some(DecimalValue(token))
    else None
  }

  /** What int() accepts: a token with a non-digit anywhere after its first
      character is refused, only a leading minus gives a negative value, and
      a token of digits alone always reads as a natural number. */
  lemma ParseIntAccepts(token: string)
    ensures (exists i :: 0 < i < |token| && !IsDigit(token[i])) ==> ParseInt(token).None?
    ensures ParseInt(token).Some? && ParseInt(token).value < 0 ==> token[0] == '-'
    ensures token != [] && AllDigits(token) ==> ParseInt(token).Some? && ParseInt(token).value >= 0
  {
    if exists i :: 0 < i < |token| && !IsDigit(token[i]) {
      var i :| 0 < i < |token| && !IsDigit(token[i]);
      assert !AllDigits(token);
      if |token| > 1 {
        assert token[1..][i - 1] == token[i];
      }
    }
  }

  /** Reading back the digits written for n gives n. */
  lemma {:induction false} DecimalRoundTrip(n: nat)
    ensures DecimalValue(NatToDecimal(n)) == n
  {
    var s := NatToDecimal(n);
    if n >= 10 {
      DecimalRoundTrip(n / 10);
      assert s[..|s| - 1] == NatToDecimal(n / 10);
    }
  }

  /** int(str(n)) == n. */
  lemma ParseIntRoundTrip(n: int)
    ensures ParseInt(IntToString(n)) == Some(n)
  {
    var digits := NatToDecimal(if n < 0 then -n else n);
    DecimalRoundTrip(if n < 0 then -n else n);
    if n < 0 {
      assert ("-" + digits)[1..] == digits;
    }
  }

  /** Distinct ints print differently. */
  lemma IntToStringInjective(a: int, b: int)
    requires IntToString(a) == IntToString(b)
    ensures a == b
  {
    ParseIntRoundTrip(a);
    ParseIntRoundTrip(b);
  }
}

=== FILE: threaded_rename.dfy ===
/** terminal/file_management/bulk_rename.py: execute_in_threads splits the
    indices 0 .. total - 1 into num_threads slices of ceil(total / num_threads)
    items, and rename_files_in_folder / create_files_in_folder run a worker
    that catches its own failures on each slice. */
module ThreadedRename {
  import opened Wrappers
  import opened Slices
  import opened Workers

  /** Failures reported before any worker starts: the ValueErrors of
      rename_files_in_folder, and the ZeroDivisionError of `ceil(total /
      num_threads)` when num_threads is 0. */
  datatype RenameError = NotADirectory | NoFiles | ZeroDivision

  /** ceil(total / n), exactly: the least integer at least total / n. */
  function ItemsPerThread(total: int, n: int): (size: int)
    requires n != 0
    ensures n > 0 ==> (size - 1) * n < total <= size * n
    ensures n < 0 ==> size * n <= total < (size - 1) * n
  {
    if n > 0 then CeilDiv(total, n) else CeilDiv(-total, -n)
  }

  function CeilDiv(a: int, n: int): (q: int)
    requires n > 0
    ensures (q - 1) * n < a <= q * n
  {
    var q := (a + n - 1) / n;
    assert (a + n - 1) == q * n + (a + n - 1) % n;
    q
  }

  function Max0(a: int): nat {
    if a > 0 then a else 0
  }

  function Min(a: int, b: int): int {
    if a < b then a else b
  }

  /** The slice thread t is started with: [t * size, min(t * size + size,
      total)). */
  function ThreadSlice(t: nat, size: int, total: int): (s: Slice)
    ensures s.threadId == t
    ensures Size(s) <= (if size > 0 then size else 0)
  {
    Slice(t, t * size, Min(t * size + size, total))
  }

  /** execute_in_threads: one slice per thread id in range(num_threads), so
      none when num_threads is negative. */
  function ExecuteInThreads(total: int, numThreads: int): (r: Result<seq<Slice>, RenameError>)
    ensures r.Failure? <==> numThreads == 0
    ensures r.Failure? ==> r.error == ZeroDivision
    ensures r.Success? ==> |r.value| == (if numThreads > 0 then numThreads else 0)
    ensures r.Success? ==> Numbered(r.value)
    ensures r.Success? ==> forall t :: 0 <= t < |r.value| ==> Size(r.value[t]) <= Max0(ItemsPerThread(total, numThreads))
  {
    if numThreads == 0 then Failure(ZeroDivision)
    else
      var size := ItemsPerThread(total, numThreads);
      Success(seq(if numThreads > 0 then numThreads else 0, t requires t >= 0 => ThreadSlice(t, size, total)))
  }

  lemma MulLeft(a: int, b: int, c: int)
    requires a <= b && c >= 0
    ensures a * c <= b * c
  {
  }

  /** For a positive thread count the slices partition 0 .. total - 1,
      whatever total is: every index lands in exactly one slice, and no slice
      reaches outside. */
  lemma CeilSlicesPartition(total: int, numThreads: int)
    requires numThreads > 0
    ensures ExecuteInThreads(total, numThreads).Success?
    ensures Partitions(ExecuteInThreads(total, numThreads).value, total)
  {
    var slices := ExecuteInThreads(total, numThreads).value;
    var size := ItemsPerThread(total, numThreads);
    assert forall t :: 0 <= t < |slices| ==> slices[t] == ThreadSlice(t, size, total);
    forall t, i | 0 <= t < |slices| && InSlice(slices[t], i) ensures 0 <= i < total {
      SliceInRange(t, size, total, i);
    }
    forall i | 0 <= i < total ensures Covered(slices, i) {
      var t := OwnerOf(i, size, total, numThreads);
      assert InSlice(slices[t], i);
    }
    forall t, u, i | 0 <= t < u < |slices| && InSlice(slices[t], i) ensures !InSlice(slices[u], i) {
      SlicesDisjoint(t, u, size, total, i);
    }
  }

  lemma SliceInRange(t: nat, size: int, total: int, i: int)
    requires InSlice(ThreadSlice(t, size, total), i)
    ensures 0 <= i < total
  {
    assert size > 0;
    MulLeft(0, t, size);
  }

  /** The thread whose slice holds index i: i / size. */
  lemma OwnerOf(i: int, size: int, total: int, numThreads: int) returns (t: nat)
    requires numThreads > 0 && size == ItemsPerThread(total, numThreads)
    requires 0 <= i < total
    ensures t == i / size
    ensures t < numThreads && InSlice(ThreadSlice(t, size, total), i)
  {
    assert size > 0 && total <= size * numThreads;
    t := i / size;
    var r := i % size;
    assert i == t * size + r && 0 <= r < size;
    BelowThreads(t, numThreads, size, i, total);
  }

  /** A thread whose slice starts at or before an index below total is one
      of the numThreads threads. */
  lemma BelowThreads(t: int, numThreads: int, size: int, i: int, total: int)
    requires size > 0 && t * size <= i < total <= size * numThreads
    ensures t < numThreads
  {
    if t >= numThreads {
      MulLeft(numThreads, t, size);
    }
  }

  lemma SlicesDisjoint(t: nat, u: nat, size: int, total: int, i: int)
    requires t < u && InSlice(ThreadSlice(t, size, total), i)
    ensures !InSlice(ThreadSlice(u, size, total), i)
  {
    assert size > 0;
    MulLeft(t + 1, u, size);
  }

  /** rename_files_in_folder: refuse a folder that is not a directory, then
      one with no files, then split the files among the threads; thread t
      renames file i to f"{new_name}_{t}_{i}.{extension}". */
  function RenameFilesInFolder(folderIsDir: bool, listing: seq<FolderEntry>, newName: string, extension: string,
                               numThreads: int, ok: int -> bool): (r: Result<seq<seq<Event>>, RenameError>)
    ensures r == Failure(NotADirectory) <==> !folderIsDir
    ensures r == Failure(NoFiles) <==> folderIsDir && Files(listing) == []
    ensures r == Failure(ZeroDivision) <==> folderIsDir && Files(listing) != [] && numThreads == 0
    ensures r.Success? ==> |r.value| == Max0(numThreads)
  {
    if !folderIsDir then Failure(NotADirectory)
    else
      var files := Files(listing);
      if files == [] then Failure(NoFiles)
      else
        var slices := ExecuteInThreads(|files|, numThreads);
        if slices.Failure? then Failure(ZeroDivision)
        else Success(CaughtLogs(slices.value, newName, extension, ok))
  }

  /** With a positive thread count every listed file is attempted, each under
      its own target name, whether or not the renames succeed. */
  lemma EveryFileRenamedOnce(folderIsDir: bool, listing: seq<FolderEntry>, newName: string, extension: string,
                             numThreads: int, ok: int -> bool)
    requires folderIsDir && Files(listing) != [] && numThreads > 0
    ensures RenameFilesInFolder(folderIsDir, listing, newName, extension, numThreads, ok).Success?
    ensures var logs := RenameFilesInFolder(folderIsDir, listing, newName, extension, numThreads, ok).value;
            && (forall i :: 0 <= i < |Files(listing)| ==> Attempted(logs, i))
            && (forall t, k :: 0 <= t < |logs| && 0 <= k < |logs[t]| ==> 0 <= logs[t][k].index < |Files(listing)|)
            && (forall t1, k1, t2, k2 ::
                  && 0 <= t1 < |logs| && 0 <= k1 < |logs[t1]| && 0 <= t2 < |logs| && 0 <= k2 < |logs[t2]|
                  && logs[t1][k1].target == logs[t2][k2].target
                  ==> t1 == t2 && k1 == k2)
            && (forall t1, k1, t2, k2 ::
                  && 0 <= t1 < |logs| && 0 <= k1 < |logs[t1]| && 0 <= t2 < |logs| && 0 <= k2 < |logs[t2]|
                  && logs[t1][k1].index == logs[t2][k2].index
                  ==> t1 == t2 && k1 == k2)
  {
    var total := |Files(listing)|;
    CeilSlicesPartition(total, numThreads);
    var slices := ExecuteInThreads(total, numThreads).value;
    CaughtLogsCover(slices, total, newName, extension, ok);
    CaughtLogsInRange(slices, total, newName, extension, ok);
    CaughtLogsTargetsDistinct(slices, newName, extension, ok);
    CaughtLogsIndicesOnce(slices, total, newName, extension, ok);
  }

  /** create_files_in_folder: thread t creates f"{new_name}_{t}_{i}.{extension}"
      for each i of its slice of 0 .. count - 1. The folder is created first
      when missing; a failure of that creation is not modelled, as the
      filesystem is left out. */
  function CreateFilesInFolder(count: int, newName: string, extension: string, numThreads: int, ok: int -> bool)
    : (r: Result<seq<seq<Event>>, RenameError>)
    ensures r.Failure? <==> numThreads == 0
    ensures r.Failure? ==> r.error == ZeroDivision
    ensures r.Success? ==> |r.value| == Max0(numThreads)
  {
    var slices := ExecuteInThreads(count, numThreads);
    if slices.Failure? then Failure(ZeroDivision)
    else Success(CaughtLogs(slices.value, newName, extension, ok))
  }

  /** With a positive thread count each index below count is attempted once,
      under its own name, and a count of zero or less attempts nothing. */
  lemma EveryFileCreatedOnce(count: int, newName: string, extension: string, numThreads: int, ok: int -> bool)
    requires numThreads > 0
    ensures CreateFilesInFolder(count, newName, extension, numThreads, ok).Success?
    ensures var logs := CreateFilesInFolder(count, newName, extension, numThreads, ok).value;
            && (forall i :: 0 <= i < count ==> Attempted(logs, i))
            && (forall t, k :: 0 <= t < |logs| && 0 <= k < |logs[t]| ==> 0 <= logs[t][k].index < count)
            && (forall t1, k1, t2, k2 ::
                  && 0 <= t1 < |logs| && 0 <= k1 < |logs[t1]| && 0 <= t2 < |logs| && 0 <= k2 < |logs[t2]|
                  && logs[t1][k1].target == logs[t2][k2].target
                  ==> t1 == t2 && k1 == k2)
            && (forall t1, k1, t2, k2 ::
                  && 0 <= t1 < |logs| && 0 <= k1 < |logs[t1]| && 0 <= t2 < |logs| && 0 <= k2 < |logs[t2]|
                  && logs[t1][k1].index == logs[t2][k2].index
                  ==> t1 == t2 && k1 == k2)
  {
    CeilSlicesPartition(count, numThreads);
    var slices := ExecuteInThreads(count, numThreads).value;
    CaughtLogsCover(slices, count, newName, extension, ok);
    CaughtLogsInRange(slices, count, newName, extension, ok);
    CaughtLogsTargetsDistinct(slices, newName, extension, ok);
    CaughtLogsIndicesOnce(slices, count, newName, extension, ok);
  }
}

=== FILE: workers.dfy ===
/** What one worker thread of either bulk-rename script does with its slice:
    the name it gives each file, and the log of attempts it leaves. */
module Workers {
  import opened Text
  import opened Slices

  /** f"{new_name}_{thread_id}_{i}.{extension}". */
  function TargetName(newName: string, threadId: nat, i: int, extension: string): string {
    newName + "_" + IntToString(threadId) + "_" + IntToString(i) + "." + extension
  }

  /** Every target name starts with the base name and an underscore and ends
      with a dot and the extension, with the thread and index between. */
  lemma TargetNameShape(newName: string, threadId: nat, i: int, extension: string)
    ensures var name := TargetName(newName, threadId, i, extension);
            && |name| > |newName| + |extension| + 1
            && name[..|newName| + 1] == newName + "_"
            && name[|name| - |extension| - 1..] == "." + extension
  {
    Regroup(newName, IntToString(threadId), IntToString(i), extension);
  }

  /** For one base name and extension, distinct (thread, index) pairs give
      distinct file names, even when the base name itself holds underscores. */
  lemma {:induction false} TargetNameInjective(newName: string, extension: string, t1: nat, i1: int, t2: nat, i2: int)
    requires TargetName(newName, t1, i1, extension) == TargetName(newName, t2, i2, extension)
    ensures t1 == t2 && i1 == i2
  {
    var rest1 := IntToString(i1) + ("." + extension);
    var rest2 := IntToString(i2) + ("." + extension);
    TailsAgree(newName, extension, t1, i1, t2, i2);
    SplitAtFirstUnderscore(IntToString(t1), rest1, IntToString(t2), rest2);
    IntToStringInjective(t1, t2);
    DropSuffix(IntToString(i1), IntToString(i2), "." + extension);
    IntToStringInjective(i1, i2);
  }

  lemma TailsAgree(newName: string, extension: string, t1: nat, i1: int, t2: nat, i2: int)
    requires TargetName(newName, t1, i1, extension) == TargetName(newName, t2, i2, extension)
    ensures IntToString(t1) + "_" + (IntToString(i1) + ("." + extension))
            == IntToString(t2) + "_" + (IntToString(i2) + ("." + extension))
  {
    Regroup(newName, IntToString(t1), IntToString(i1), extension);
    Regroup(newName, IntToString(t2), IntToString(i2), extension);
    DropPrefix(newName + "_", IntToString(t1) + "_" + (IntToString(i1) + ("." + extension)),
               IntToString(t2) + "_" + (IntToString(i2) + ("." + extension)));
  }

  lemma Regroup(n: string, a: string, b: string, e: string)
    ensures n + "_" + a + "_" + b + "." + e == (n + "_") + (a + "_" + (b + ("." + e)))
  {
  }

  lemma DropPrefix(prefix: string, x1: string, x2: string)
    requires prefix + x1 == prefix + x2
    ensures x1 == x2
  {
    assert x1 == (prefix + x1)[|prefix|..];
    assert x2 == (prefix + x2)[|prefix|..];
  }

  /** Two strings of the form a + "_" + r, where a holds no underscore, agree
      only when their a parts and their r parts agree. */
  lemma SplitAtFirstUnderscore(a1: string, r1: string, a2: string, r2: string)
    requires '_' !in a1 && '_' !in a2
    requires a1 + "_" + r1 == a2 + "_" + r2
    ensures a1 == a2 && r1 == r2
  {
    var s := a1 + "_" + r1;
    UnderscoreAfter(a1, r1);
    UnderscoreAfter(a2, r2);
    assert s[|a1|] == '_' && s[|a2|] == '_';
    assert |a1| == |a2|;
    assert a1 == s[..|a1|] == a2;
    assert r1 == s[|a1| + 1..] == r2;
  }

  /** In a + "_" + r, with no underscore in a, the first underscore is the
      one right after a. */
  lemma UnderscoreAfter(a: string, r: string)
    requires '_' !in a
    ensures (a + "_" + r)[|a|] == '_'
    ensures forall k :: 0 <= k < |a| ==> (a + "_" + r)[k] != '_'
  {
    assert forall k :: 0 <= k < |a| ==> (a + "_" + r)[k] == a[k];
  }

  lemma DropSuffix(x1: string, x2: string, suffix: string)
    requires x1 + suffix == x2 + suffix
    ensures x1 == x2
  {
    assert x1 == (x1 + suffix)[..|x1|];
    assert x2 == (x2 + suffix)[..|x2|];
  }

  /** One name os.listdir(folder) returned, with what os.path.isfile says
      of it. */
  datatype FolderEntry = FolderEntry(name: string, isFile: bool)

  /** `[f for f in os.listdir(folder) if os.path.isfile(...)]`: the names of
      the plain files, in listing order. */
  function Files(listing: seq<FolderEntry>): (files: seq<string>)
    ensures |files| <= |listing|
    ensures files == [] <==> forall e :: e in listing ==> !e.isFile
  {
    if listing == [] then []
    else (if listing[0].isFile then [listing[0].name] else []) + Files(listing[1..])
  }

  /** A name is among the files exactly when the listing holds a plain file
      of that name. */
  lemma {:induction false} FilesMembers(listing: seq<FolderEntry>)
    ensures forall f :: f in Files(listing) <==> exists e :: e in listing && e.isFile && e.name == f
  {
    if listing != [] {
      FilesMembers(listing[1..]);
      assert forall e :: e in listing <==> e == listing[0] || e in listing[1..];
    }
  }

  /** Files keeps the listing's order: the names of a concatenated listing
      are those of each part in turn. */
  lemma {:induction false} FilesKeepsOrder(first: seq<FolderEntry>, second: seq<FolderEntry>)
    ensures Files(first + second) == Files(first) + Files(second)
  {
    if first == [] {
      assert first + second == second;
    } else {
      assert (first + second)[1..] == first[1..] + second;
      FilesKeepsOrder(first[1..], second);
    }
  }

  /** One entry contributes its name exactly when it is a plain file, so
      with FilesKeepsOrder each plain file gives one name. */
  lemma FilesOfEntry(e: FolderEntry)
    ensures Files([e]) == (if e.isFile then [e.name] else [])
  {
    assert [e][1..] == [];
  }

  /** One attempt a worker made: the index, the name it renamed the file to
      or created, and whether the filesystem call went through. */
  datatype Event = Event(threadId: nat, index: int, target: string, ok: bool)

  /** The attempt on index i, with `ok` telling which filesystem calls
      succeed. */
  function Attempt(threadId: nat, i: int, newName: string, extension: string, ok: int -> bool): Event {
    Event(threadId, i, TargetName(newName, threadId, i, extension), ok(i))
  }

  /** The worker of terminal/file_management/bulk_rename.py: each failure is
      caught and reported, and the loop goes on to the next index. */
  function CaughtWorker(s: Slice, newName: string, extension: string, ok: int -> bool): (log: seq<Event>)
    ensures |log| == Size(s)
    ensures forall k :: 0 <= k < |log| ==> log[k] == Attempt(s.threadId, s.start + k, newName, extension, ok)
    decreases s.end - s.start
  {
    if s.end <= s.start then []
    else [Attempt(s.threadId, s.start, newName, extension, ok)] + CaughtWorker(Slice(s.threadId, s.start + 1, s.end), newName, extension, ok)
  }

  /** The worker of terminal/system-monitoring/bulk_rename.py: nothing is
      caught, so the first failure ends the thread. */
  function UncaughtWorker(s: Slice, newName: string, extension: string, ok: int -> bool): (log: seq<Event>)
    ensures log <= CaughtWorker(s, newName, extension, ok)
    ensures forall k :: 0 <= k < |log| - 1 ==> log[k].ok
    ensures |log| < Size(s) ==> |log| > 0 && !log[|log| - 1].ok
    decreases s.end - s.start
  {
    if s.end <= s.start then []
    else
      var first := Attempt(s.threadId, s.start, newName, extension, ok);
      if !first.ok then [first]
      else
        var next := Slice(s.threadId, s.start + 1, s.end);
        var rest := UncaughtWorker(next, newName, extension, ok);
        CaughtStep(s, newName, extension, ok);
        ConsOk(first, rest);
        PrefixCons(first, rest, CaughtWorker(next, newName, extension, ok));
        [first] + rest
  }

  /** The catching worker's log is its first attempt followed by the log of
      the rest of the slice. */
  lemma CaughtStep(s: Slice, newName: string, extension: string, ok: int -> bool)
    requires s.start < s.end
    ensures CaughtWorker(s, newName, extension, ok)
              == [Attempt(s.threadId, s.start, newName, extension, ok)]
                 + CaughtWorker(Slice(s.threadId, s.start + 1, s.end), newName, extension, ok)
    ensures Size(s) == Size(Slice(s.threadId, s.start + 1, s.end)) + 1
  {
  }

  lemma ConsOk(first: Event, rest: seq<Event>)
    requires first.ok
    requires forall k :: 0 <= k < |rest| - 1 ==> rest[k].ok
    ensures forall k :: 0 <= k < |rest| ==> ([first] + rest)[k].ok
    ensures rest != [] ==> ([first] + rest)[|rest|] == rest[|rest| - 1]
  {
    forall k | 0 <= k < |rest| ensures ([first] + rest)[k].ok {
      if k > 0 {
        assert ([first] + rest)[k] == rest[k - 1];
      }
    }
  }

  lemma PrefixCons<T>(x: T, a: seq<T>, b: seq<T>)
    requires a <= b
    ensures [x] + a <= [x] + b
  {
    assert ([x] + b)[..|a| + 1] == [x] + b[..|a|];
  }

  /** A log cut at its first failed attempt: the catching worker's log up to
      and including that attempt, or all of it when nothing failed. */
  predicate StopsAtFirstFailure(log: seq<Event>, s: Slice, newName: string, extension: string, ok: int -> bool) {
    && log <= CaughtWorker(s, newName, extension, ok)
    && (forall k :: 0 <= k < |log| - 1 ==> log[k].ok)
    && (|log| < Size(s) ==> |log| > 0 && !log[|log| - 1].ok)
  }

  /** When every filesystem call in the slice succeeds, the two workers
      leave the same log: every index visited, in order. */
  lemma UncaughtMatchesCaughtWithoutFailures(s: Slice, newName: string, extension: string, ok: int -> bool)
    requires forall i :: InSlice(s, i) ==> ok(i)
    ensures UncaughtWorker(s, newName, extension, ok) == CaughtWorker(s, newName, extension, ok)
  {
    var u := UncaughtWorker(s, newName, extension, ok);
    assert |u| > 0 ==> InSlice(s, s.start + |u| - 1);
  }

  /** The logs of a run: one caught worker per slice. */
  function CaughtLogs(slices: seq<Slice>, newName: string, extension: string, ok: int -> bool): (logs: seq<seq<Event>>)
    ensures |logs| == |slices|
    ensures forall t :: 0 <= t < |slices| ==> logs[t] == CaughtWorker(slices[t], newName, extension, ok)
  {
    seq(|slices|, t requires 0 <= t < |slices| => CaughtWorker(slices[t], newName, extension, ok))
  }

  /** Some worker made an attempt on index i. */
  ghost predicate Attempted(logs: seq<seq<Event>>, i: int) {
    exists t, k :: 0 <= t < |logs| && 0 <= k < |logs[t]| && logs[t][k].index == i
  }

  /** What the k-th attempt of a caught worker is about. */
  lemma CaughtEvent(s: Slice, newName: string, extension: string, ok: int -> bool, k: int)
    requires 0 <= k < |CaughtWorker(s, newName, extension, ok)|
    ensures CaughtWorker(s, newName, extension, ok)[k].index == s.start + k
    ensures InSlice(s, s.start + k)
    ensures CaughtWorker(s, newName, extension, ok)[k].target == TargetName(newName, s.threadId, s.start + k, extension)
  {
  }

  /** Over slices that partition 0 .. total - 1, the caught workers attempt
      every index below total. */
  lemma CaughtLogsCover(slices: seq<Slice>, total: int, newName: string, extension: string, ok: int -> bool)
    requires Partitions(slices, total)
    ensures forall i :: 0 <= i < total ==> Attempted(CaughtLogs(slices, newName, extension, ok), i)
  {
    var logs: seq<seq<Event>> := CaughtLogs(slices, newName, extension, ok);
    forall i | 0 <= i < total ensures Attempted(logs, i) {
      assert Covered(slices, i);
      var t :| 0 <= t < |slices| && InSlice(slices[t], i);
      var k := i - slices[t].start;
      CaughtEvent(slices[t], newName, extension, ok, k);
    }
  }

  /** ... and nothing outside 0 .. total - 1, so files[i] is always in range. */
  lemma CaughtLogsInRange(slices: seq<Slice>, total: int, newName: string, extension: string, ok: int -> bool)
    requires Partitions(slices, total)
    ensures forall t, k :: 0 <= t < |slices| && 0 <= k < |CaughtLogs(slices, newName, extension, ok)[t]| ==>
              0 <= CaughtLogs(slices, newName, extension, ok)[t][k].index < total
  {
    var logs: seq<seq<Event>> := CaughtLogs(slices, newName, extension, ok);
    forall t: int, k: int | 0 <= t < |slices| && 0 <= k < |logs[t]| ensures 0 <= logs[t][k].index < total {
      CaughtEvent(slices[t], newName, extension, ok, k);
    }
  }

  /** ... and each index is attempted by one thread, once. */
  lemma CaughtLogsIndicesOnce(slices: seq<Slice>, total: int, newName: string, extension: string, ok: int -> bool)
    requires Partitions(slices, total)
    ensures forall t1, k1, t2, k2 ::
              && 0 <= t1 < |slices| && 0 <= k1 < |CaughtLogs(slices, newName, extension, ok)[t1]|
              && 0 <= t2 < |slices| && 0 <= k2 < |CaughtLogs(slices, newName, extension, ok)[t2]|
              && CaughtLogs(slices, newName, extension, ok)[t1][k1].index == CaughtLogs(slices, newName, extension, ok)[t2][k2].index
              ==> t1 == t2 && k1 == k2
  {
    var logs: seq<seq<Event>> := CaughtLogs(slices, newName, extension, ok);
    forall t1: int, k1: int, t2: int, k2: int |
      && 0 <= t1 < |slices| && 0 <= k1 < |logs[t1]| && 0 <= t2 < |slices| && 0 <= k2 < |logs[t2]|
      && logs[t1][k1].index == logs[t2][k2].index
      ensures t1 == t2 && k1 == k2
    {
      CaughtEvent(slices[t1], newName, extension, ok, k1);
      CaughtEvent(slices[t2], newName, extension, ok, k2);
      OwnerIsUnique(slices, total, t1, t2, slices[t1].start + k1);
    }
  }

  /** ... and no two attempts, in one thread or in two, use the same target
      name, so no rename overwrites the result of another. */
  lemma CaughtLogsTargetsDistinct(slices: seq<Slice>, newName: string, extension: string, ok: int -> bool)
    requires Numbered(slices)
    ensures forall t1, k1, t2, k2 ::
              && 0 <= t1 < |slices| && 0 <= k1 < |CaughtLogs(slices, newName, extension, ok)[t1]|
              && 0 <= t2 < |slices| && 0 <= k2 < |CaughtLogs(slices, newName, extension, ok)[t2]|
              && CaughtLogs(slices, newName, extension, ok)[t1][k1].target == CaughtLogs(slices, newName, extension, ok)[t2][k2].target
              ==> t1 == t2 && k1 == k2
  {
    var logs: seq<seq<Event>> := CaughtLogs(slices, newName, extension, ok);
    forall t1: int, k1: int, t2: int, k2: int |
      && 0 <= t1 < |slices| && 0 <= k1 < |logs[t1]|
      && 0 <= t2 < |slices| && 0 <= k2 < |logs[t2]|
      && logs[t1][k1].target == logs[t2][k2].target
      ensures t1 == t2 && k1 == k2
    {
      CaughtEvent(slices[t1], newName, extension, ok, k1);
      CaughtEvent(slices[t2], newName, extension, ok, k2);
      TargetNameInjective(newName, extension, t1, slices[t1].start + k1, t2, slices[t2].start + k2);
    }
  }
}

=== FILE: wrappers.dfy ===
/** Option and Result, for values that Python reports as None or as an exception. */
module Wrappers {

  datatype Option<+T> = None | Some(value: T)

  datatype Result<+T, +E> = Success(value: T) | Failure(error: E)
}
